=== FILE: README.md ===
# ioBroker.discovery: a Dafny model of the scan orchestrator

ioBroker.discovery scans the network and serial ports for devices, runs a
catalog of detectors against each device, and proposes adapter instances for
what it recognises. This project models in Dafny the parts of `main.js` that
hold the scan together, and one detector (`lib/adapters/deconz.js`):

- **Catalog** (`catalog.dfy`) covers `isValidAdapter` and `forEachValidAdapter`. They pick the
  detectors for a device by their declared `type` and by whether they have
  `dependencies`. It also covers the `timeout || 2000` default.
- **Registry** (`registry.dfy`) covers the device registry `g_devices` and
  `Browse.addDevice`. A first observation is stored tagged with `_source`
  and `_type`. A repeat observation is merged into the stored record by the
  recursive `_merge`. A disagreement on `name`, `data` or `LOCATION` is
  kept in a `<field>x` history list.
- **Completion** (`completion.dfy`) covers the discovery-method wrapper
  (`Method`), its `done`, `addDevice(null)`, timer and progress interval,
  `Browse.done`, and the `browse` guard and method filter. Each method
  reports done to the scan at most once. The scan hands on its device list
  once every method has reported.
- **Snapshot** (`snapshot.dfy`, `order.dfy`) builds the device list handed
  to the analysis. It is every stored record, by sorted type key and then by
  sorted address, followed by the synthetic local host. `Array.prototype.sort`
  is modelled as a character-by-character comparison.
- **PhaseOne** (`phase.dfy`) covers the counter of `analyseDevice`'s first
  phase. Each detector's callback, timeout or exception decrements it, and
  reaching zero starts the dependency phase once.
- **Reconcile** and **Finish** (`reconcile.dfy`, `finish.dfy`) cover
  `discoveryEnd`. Passwords listed in `encryptedNativeLegacy` are encrypted
  with the system secret. Then `comment.ack` is carried from the previous
  scan's acknowledged proposals to this scan's proposals with the same JSON
  text, compared after the `_id`'s trailing `.N` is removed.
- **Deconz** (`deconz.dfy`) covers `detect` and `addDeconz`: a UPnP answer
  naming a Phoscon gateway leads to one deconz instance proposal, unless an
  instance for that bridge is already known.

JavaScript values are the datatype `Js.Value`. An object is an association
list that keeps property insertion order, because `_merge` walks properties
in that order and reconciliation compares JSON text. Property assignment is
`Js.Put`, `delete` is `Js.Remove`, and `JSON.parse(JSON.stringify(v))` is
`Js.Canon`.

In `_merge`, a special field (`name`, `data`, `LOCATION`) that a later
report contradicts takes the newest value. The older values survive only in
the `<field>x` history list.

## Model

| member | source | states |
|---|---|---|
| `Catalog.EffectiveTimeout` | main.js:268 | A detector runs with its declared timeout when that is truthy, and with 2000 ms otherwise. The result is always truthy. |
| `Catalog.IsValidAdapter` | main.js:128-141 | A detector is valid exactly when it is in the catalog, its string type equals the device type or its array type contains it, and the truthiness of its `dependencies` equals the requested phase. A missing `dependencies` argument never matches. |
| `Catalog.ForEachValidAdapter` | main.js:143-157 | The callback sees exactly the valid detectors for the device's `_type` (or for the argument itself when it is not an object). Each is seen once, in catalog order, and the return value is how many were seen. |
| `Registry.HistoryKey` | main.js:754 | The history property `<name>x` is never the property it records. |
| `Registry.RecordConflict` | main.js:755-762 | On a conflict on a special field, the new value becomes current. The history is seeded with the replaced value when absent and gains the new value unless it is falsy or already listed. No other property changes. |
| `Registry.GrownHistoryShape` | main.js:755-762 | A history without duplicates stays without duplicates. A freshly seeded history starts with the replaced value. A truthy new value is always in the history, and the old history is a prefix of the new one. |
| `Registry.MergeScalar` | main.js:752-766 | For a scalar property: a conflicting special field is recorded as a conflict, and agreement on a truthy special field changes nothing. Anything else is overwritten. Only the property and its history can change. |
| `Registry.MergeKnownIsNoOp` | main.js:742-768 | Merging an object into a record that already holds each of its properties with the same value leaves the record unchanged, at every depth. |
| `Registry.Store` | main.js:706-734 | Storing a record under (type, address) makes it what lookup returns there. Every other (type, address) looks up as before. Type keys, and addresses under each type, stay distinct. |
| `Registry.FirstRecord` | main.js:722-737 | A first observation is stored as reported, plus `_source` and `_type` (`type` or 'ip') and without `_new`. For the upnp method its `_upnp` payload is wrapped in a list, even when undefined. Other methods store no `_upnp` list. |
| `Registry.Extend` | main.js:710-772 | A repeat observation appends its defined `_upnp` payload to the stored list. Properties the merge does not touch, other than `_name`, keep their stored values. |
| `Registry.MergeProps` | main.js:742-768 | A property that is neither an incoming property nor the history of one keeps its value. |
| `Registry.MergeStep` | main.js:743-767 | One incoming property changes at most that property and its history property. |
| `Registry.StepMeaning` | main.js:743-767 | One step leaves the incoming value under its property. An object is merged into the stored object or into `{}`. A conflicting special scalar leaves the grown history under `<name>x`, and `<name>x` is otherwise unchanged. |
| `Registry.StepsUpTo` | main.js:742-768 | Running the walk only up to a given incoming property leaves alone every property that none of those steps names, directly or as its history. |
| `Registry.MergeWalk` | main.js:742-768 | Over the whole walk, each incoming property that no other incoming property shadows ends up with its merged value and history, as if its step ran alone. |
| `Registry.ExtendMerges` | main.js:742-772 | In a repeat, a property the observation lacks keeps its stored value. A property it has takes the incoming value, merged recursively when it is an object, and `undefined` included. A contradicted special field records the conflict under `<name>x`. |
| `Registry.NameRepairIsDead` | main.js:742-772 | The `_name` repair after the merge never applies, because the merge has already copied any truthy `_name`. |
| `Registry.AddDevice` | main.js:700-773 | An observation without a truthy `_addr` is ignored. A new device is stored as its first record and counted. A repeat whose stored `_type` equals the method's type is merged and not counted. No other stored device changes, and keys stay distinct. |
| `Registry.RepeatObservation` | main.js:700-773 | Reporting the same observation twice stores and counts it once. The second report leaves the stored properties unchanged and only grows the `_upnp` list. |
| `Registry.FirstRecordName` | main.js:770-772 | A stored first record has the `_name` the observation reported. |
| `Registry.UntypedMethodReplaces` | main.js:706-734 | For a method without a `type`, a repeat never matches the stored record (its `_type` is 'ip'). Every report replaces the record under the key "undefined" and is counted again. |
| `Completion.MethodDone` | main.js:562-580 | Only the first `done` notifies the scan. It clears the timer and interval and sets progress to 100. Later calls change only the call counter. |
| `Completion.MethodStep` | main.js:538-612 | The scan hears from a method exactly when the method first becomes done. A pending timer that expires always ends the method, whether or not `close` was overridden. Only a device report raises the method's found count. |
| `Completion.DoneIdempotent` | main.js:538-580 | `addDevice(null)` acts as `done()`, and a second `done()` neither notifies nor changes anything but the counter. |
| `Completion.BrowseDone` | main.js:651-676 | A report from a method lowers the scan's count. When the count reaches zero the device list is taken once and the count is parked at -1. Registry and methods are untouched. |
| `Completion.Start` | main.js:783-785 | A new scan has every method fresh and the registry empty. With no method it hands on the list holding only the local host at once. Otherwise it waits for as many reports as there are methods. |
| `Completion.Step` | main.js:538-612 | A method's report is stored and counted as `addDevice` does it and leaves the scan's count alone. The method's first `done` is passed to `Browse.done`. Any other event leaves the count, the lists and the registry alone. |
| `Completion.StepKeeps` | main.js:538-676 | After any event, handed-on lists, done methods and stored devices are all still there. The found count never drops, and keys stay distinct. |
| `Completion.Run` | main.js:538-676 | Along any run of events, handed-on lists, done methods and stored devices are all still there. |
| `Completion.SnapshotOnce` | main.js:651-676 | Whatever the methods do and in whatever order, the scan hands on at most one device list. It has handed one on exactly when every method has reported done. |
| `Completion.RunConsistent` | main.js:651-657 | Along any run, the count is the number of methods still running until the list is taken. Afterwards it is -1, every method is done and there is one list. |
| `Completion.Selected` | main.js:631 | The methods started are exactly those with a `browse` entry that the options name (every one when there are no options). Each is started once: method names stay distinct, as `Object.keys` yields them. |
| `Completion.Request` | main.js:615-633 | A request while a scan runs is refused with 'Yet running'. Either way a scan is running afterwards. Otherwise a scan starts with an empty registry, one wrapper per selected method, and the local-host list when nothing is selected. |
| `Snapshot.Pairs` | main.js:661-665 | The (type, address) pairs visited are exactly the stored ones. |
| `Snapshot.PairsOrdered` | main.js:661-665 | With distinct keys, which every store keeps, the pairs are visited in strictly increasing order: by type key, then by address key. |
| `Snapshot.Records` | main.js:661-665 | The i-th record listed is the record stored under the i-th visited pair. |
| `Snapshot.DeviceList` | main.js:659-673 | The list handed on is the records in visiting order, followed by the local host `{_addr: '0.0.0.0', _name: 'localhost', _type: 'once'}`. |
| `Order.Sort` | main.js:661-662 | `keys.sort()` yields a sorted permutation of the keys. |
| `Order.SortDistinct` | main.js:661-662 | Sorting distinct keys yields a strictly increasing sequence. |
| `Order.LessTotal` | main.js:661-662 | The string order `sort` uses is total. |
| `Order.LessTransitive` | main.js:661-662 | The string order `sort` uses is transitive. |
| `PhaseOne.Launch` | main.js:246-301 | After launching n detectors the counter is n and every detector has a pending timer. With none, the dependency phase has started at once. |
| `PhaseOne.Step` | main.js:261-298 | A throw always decrements the counter and leaves the detector's timer pending. A callback or timeout decrements it only while the timer is pending, and clears the timer. Otherwise nothing changes. |
| `PhaseOne.Decrement` | main.js:264-267 | Decrementing a counter at 1 starts the dependency phase and stops the counter. Any other decrement starts nothing. |
| `PhaseOne.StartsAtMostOnce` | main.js:261-301 | Whatever the detectors do and in whatever order, the dependency phase of a device starts at most once. |
| `PhaseOne.StartsWhenAllReported` | main.js:261-291 | When no detector throws, the dependency phase starts exactly when every detector has called back or timed out. |
| `PhaseOne.RunWithoutThrow` | main.js:261-298 | Without exceptions, the code as written and the repaired throw handling behave identically. |
| `PhaseOne.ThrowThenTimeoutStartsEarly` | main.js:292-298 | As written, a detector that throws and later times out is counted twice. With two detectors the dependency phase starts while the second has not reported. |
| `PhaseOne.FixedStep` | main.js:280-298 | In the repaired handling, every event clears the detector's timer, an exception included. The number of pending timers drops by one exactly when the event counts, so each detector is counted once. An event for a cleared timer changes neither the counter nor the starts. |
| `PhaseOne.FixedStartsWhenAllReported` | main.js:261-298 | With the repaired handling, the dependency phase starts at most once, and exactly when every detector has called back, timed out or thrown. |
| `Reconcile.StripIdSuffix` | main.js:468 | The id changes exactly when it ends in a dot followed by digits. Then exactly that dot and those digits are removed. |
| `Reconcile.StripAppendedSuffix` | main.js:468 | Stripping undoes appending a dot and an instance number to any id. |
| `Reconcile.StripDeconzId` | main.js:478 | `system.adapter.deconz.0` compares as `system.adapter.deconz`, which is left alone. |
| `Reconcile.AckedKeysMembers` | main.js:465-473 | The texts kept are exactly those of the acknowledged old proposals, and there are no more of them than old proposals. |
| `Reconcile.AckedKeysAppend` | main.js:465-473 | One more old proposal adds its own text at the end when it is acknowledged, and nothing otherwise. So there is one text per acknowledged old proposal, in their order. |
| `Reconcile.PruneOlds` | main.js:465-473 | The backward loop with its in-place replacements and splices leaves one text per acknowledged old proposal, in their order. |
| `Reconcile.ReplaceEach` | main.js:465-473 | Walking a list backwards and replacing each element in place by zero or one elements concatenates the replacements in order. |
| `Reconcile.NoAckedKeys` | main.js:465-473 | No text is kept exactly when no old proposal was acknowledged. |
| `Reconcile.SetAckShape` | main.js:480 | Acknowledging a proposal keeps its id and makes its JSON text carry `comment.ack: true`. |
| `Reconcile.AckedNeverMatches` | main.js:466-480 | An acknowledged proposal never has the text of an old one, whose `ack` was removed. |
| `Reconcile.MatchIsUnacked` | main.js:466-480 | A proposal that matches an old text is not yet acknowledged, so acknowledging it changes it. |
| `Reconcile.FirstMatch` | main.js:476-483 | The inner loop stops at the first proposal whose current text equals the old text, or runs off the end. |
| `Reconcile.RankGrows` | main.js:475-484 | Of two proposals with the same text, the later one has more earlier proposals sharing it. |
| `Reconcile.MarkFirst` | main.js:475-484 | Acknowledging the first unacknowledged proposal with an old text keeps "exactly the first proposals of each text, as many as the old texts seen so far" true. |
| `Reconcile.MarkNone` | main.js:475-484 | When every proposal with an old text is acknowledged already, that old text changes nothing and the same property holds. |
| `Reconcile.Round` | main.js:476-483 | One round of the outer loop marks the first not yet acknowledged proposal with that old text, and keeps the property above. |
| `Reconcile.CarryAcks` | main.js:461-484 | Proposals keep their order and ids, and each is itself or itself acknowledged. Proposal n is acknowledged exactly when fewer earlier proposals share its text than there are acknowledged old proposals with that text. So the first matches are acknowledged, one per old proposal. |
| `Reconcile.CarryNothing` | main.js:461-484 | With no acknowledged old proposal nothing changes. A proposal whose text no acknowledged old proposal has is never acknowledged. |
| `Reconcile.CarryFirst` | main.js:475-484 | The first proposal with an acknowledged old text is always acknowledged. Of two proposals with the same text, the later is acknowledged only if the earlier one is. |
| `Finish.Secret` | main.js:429 | The secret is the configured `native.secret` when truthy, else the built-in default. It is always truthy. |
| `Finish.Occurrences` | main.js:436-440 | The count of list entries naming a property is zero exactly when no entry names it. |
| `Finish.EncryptInstance` | main.js:432-442 | The pass keeps a proposal an object, and leaves a proposal without a truthy `encryptedNativeLegacy` unchanged. |
| `Finish.EncryptAttrsGet` | main.js:436-440 | After the pass, each property has been encrypted once per list entry naming it, stopping once the value is falsy. |
| `Finish.EncryptAttrsKeys` | main.js:436-440 | The pass keeps the `native` properties and their order. |
| `Finish.EncryptDropsList` | main.js:433-435 | A truthy `encryptedNativeLegacy` list is deleted from the proposal. |
| `Finish.EncryptKeepsOthers` | main.js:432-442 | Every property other than `native` and the list is left unchanged. |
| `Finish.EncryptNative` | main.js:436-440 | Each `native` property of a listed proposal is encrypted once per time the list names it. |
| `Finish.EncryptKeepsShape` | main.js:432-442 | Encryption keeps the string `_id` that reconciliation needs. |
| `Finish.StoredOld` | main.js:461 | Without a stored discovery object there are no old proposals. Otherwise they are the stored `native.newInstances` list. |
| `Finish.DiscoveryEnd` | main.js:429-484 | Each proposal keeps its place and id and ends as its encrypted form, possibly acknowledged. It is acknowledged exactly when fewer earlier encrypted proposals share its text than there are stored acknowledged proposals with it. So the first match is always acknowledged and a proposal without a match never is. With nothing stored, the result is just the encrypted proposals. |
| `Deconz.AddDeconz` | lib/adapters/deconz.js:5-37 | An instance is proposed exactly when none for the bridge (by `native.bridge` or `native.webServer`) is known. A proposal appends one instance and keeps the earlier ones. Otherwise nothing changes. |
| `Deconz.ProposalShape` | lib/adapters/deconz.js:12-31 | The proposed instance carries the next instance id, the name 'deconz', the bridge address, and a single input `native.user`. |
| `Deconz.Detect` | lib/adapters/deconz.js:40-52 | `detect` reports `ip`, and found exactly when some UPnP answer names a Phoscon gateway and no instance is known. At most one instance is proposed. An undefined answer examined before a proposal throws and changes nothing. |
| `Deconz.DescriptorSelection` | lib/adapters/deconz.js:54-56 | The deconz detector is selected exactly for upnp devices in the phase without dependencies, and it is given 500 ms. |
| `Js.Put` | main.js:763-765 | Assignment makes the property hold the value and leaves every other property alone. An existing property keeps its place, and a new one is appended in this model's insertion order. |
| `Js.Remove` | main.js:467 | `delete` removes the property, leaves every other property alone and keeps the rest in order. |
| `Js.CanonIsCanonical` | main.js:469 | A JSON copy holds no `undefined` property at any depth. |
| `Js.CanonIdempotent` | main.js:477 | A JSON round trip of a JSON round trip is the first round trip. |
| `Js.CanonMember` | main.js:477-479 | A property of an object's JSON copy is the JSON copy of the property. |

## Left out

- DNS name lookup (`getMissedNames`) is not modelled. The list is handed on as taken, so it is treated as leaving the devices unchanged.
- The object store (`getForeignObjectAsync`, `setForeignObjectAsync`), state writes, logging and progress reporting are not modelled. Their results are parameters (`systemConfig`, `stored`) or are dropped.
- `enumAdapters`, `enumMethods`, message handling and the adapter's start-up are outside this model. The catalog and the method list are parameters.
- The dependency phase (`analyseDeviceDependencies`), the serial branch and its loop, the advice pass and the analysis of the device list one by one are not modelled. Only the first-phase counter that starts the dependency phase is modelled.
- Real timers and delays are events. A second `setTimeout` call on the same wrapper does not model a second timer. The progress interval's stop test reads a misspelled property and never fires, so the interval only ticks.
- `Completion.MethodStep`: a `close` replaced by the method is modelled only by whether it calls `done`.
- `haltAllMethods` and the `halt` flags are not modelled.
- JavaScript `null` is not a value of the model, so `typeof null === 'object'` paths are not modelled.
- `Registry.MergeStep`: an array inside an observation overwrites the stored value. The source takes its `typeof [] === 'object'` branch and walks `Object.getOwnPropertyNames` of the array, which includes `length`. Over a stored array it overwrites or merges the elements one by one and then assigns `length`, which truncates or extends the stored array. Over a stored non-object it builds a plain object `{0: …, length: n}`, not an array.
- `Registry.Extend`: `_upnp` is kept beside the merged properties and is never merged itself.
- `Registry.AddDevice`: `_addr` is used as a registry key through the model's `String(...)` of its value.
- `Js.Value`: objects have no prototype chain. `Js.Get` and `Js.Member` read own properties only, so an inherited name such as `toString` or `constructor` reads as `undefined`. For an object `native` listing `toString`, the source encrypts the inherited function and adds it as an own property. The model leaves `native` unchanged there, and `Finish.EncryptNative` speaks only of own properties.
- `Js.Value`: numbers are integers. NaN, the infinities and fractions are not modelled. So a NaN `name` that conflicts with itself, and `JSON.stringify` writing NaN as `null`, are not covered.
- `Order.Sort`: keys are compared by Unicode code point, not UTF-16 code unit. The two differ only outside the Basic Multilingual Plane.
- `Reconcile.CarryAcks`: every old proposal must have a `comment`, and an acknowledged one a string `_id`. When some old proposal is acknowledged, every new proposal must have a string `_id`. The model requires all of this of every proposal. The source throws only when its loops reach a proposal without it, and a new proposal after the last match is never read. The model also keeps object keys distinct, as JavaScript does.
- `Registry.AddDevice`: only the upnp method may report an `_upnp` payload. For another method the source stores the payload bare and throws on the repeat's `push`. That path is not modelled.
- `Registry.HistoryOf`: a `<name>x` that holds something other than an array or `undefined` is reseeded. On a truthy conflicting value the source throws there instead, or for a string searches it as text.
- `Registry.MergeStep`: an object reported over a stored array replaces it with an object. The source adds the properties to the array itself, and an array with named properties is not a value of this model.
- `Registry.ExtendMerges`: a property that another incoming property shadows as its `<name>x` history is not described. Its value depends on the order of the two properties.
- `Snapshot.DeviceList`: the list holds copies of the stored records, and so do the lists `Completion` hands on. The source pushes references, so a record changed after the snapshot changes in the list too. The model has no aliasing.
- `Js.Put`: JavaScript enumerates integer-like property names first, in ascending order. The model keeps every name in insertion order.
- `Finish.EncryptInstance`: a truthy `encryptedNativeLegacy` must be an array, and a non-empty one needs an object `native`. The model requires both. The source throws when the list has no `forEach`, or when `native` is `undefined` or `null`. With a primitive `native` it throws once a listed name reads truthy: a string index, `length`, or an inherited method such as `toString`. The write is then refused, since the file is strict. A primitive `native` whose listed names all read falsy is left alone.
- `Finish.StoredOld`: a stored `newInstances` that is a string (which the source would iterate character by character) is not modelled. The stored object must have a `native` property.
- `Finish.DiscoveryEnd`: `adapter.encrypt` is an uninterpreted function parameter.
- `Deconz.Detect`: `tools.findInstance`, `getNextInstanceID` and `translate` are uninterpreted parameters, and `findInstance` is reduced to whether it found something. `lib/tools.js` is not part of this model. A device without a `_upnp` list is not modelled.
- `Registry.RecordConflict`: the property that two conflicting reports of `name` always leave a history of both was not stated, for proof cost. `GrownHistoryShape` states its parts.

## Findings

| source | as written | input that shows it | evidently intended | confidence | as-written member | corrected member |
|---|---|---|---|---|---|---|
| main.js:292-298 | When `detect` throws, the counter is decremented but the detector's timer is not cleared. When that timer later expires, it decrements the counter again. | Two detectors: the first throws, then its timer expires. The counter reaches zero and the dependency phase starts, although the second detector has not reported. | Each detector is counted once, so the dependency phase starts only after every detector has called back, timed out or thrown. | not executed | `PhaseOne.ThrowThenTimeoutStartsEarly` | `PhaseOne.FixedStartsWhenAllReported` |

=== FILE: catalog.dfy ===
/** The detector catalog and the filter that picks, for one device, the
    detectors to run in one phase (`isValidAdapter`, `forEachValidAdapter`
    in main.js). The catalog is the JavaScript object `adapters`, name to
    module; only a module's declared metadata matters here. */
module Catalog {
  import opened Js

  /** The shape of a detector's `type` export. */
  datatype Kind =
    | Named(name: string)        // a string: exact match
    | AnyOf(names: seq<Value>)   // an array: membership
    | Untyped                    // anything else, e.g. absent: no restriction

  /** A detector module's declared metadata. `dependencies` and `timeout`
      are the raw exported values (`Undef` when not exported). */
  datatype Detector = Detector(kind: Kind, dependencies: Value, timeout: Value)

  type Adapters = seq<(string, Detector)>

  const DefaultTimeout: int := 2000

  /** `adapters[a].timeout || 2000` */
  function EffectiveTimeout(d: Detector): (t: Value)
    ensures Truthy(t)
    ensures Truthy(d.timeout) ==> t == d.timeout
    ensures !Truthy(d.timeout) ==> t == Num(DefaultTimeout)
  {
    if Truthy(d.timeout) then d.timeout else Num(DefaultTimeout)
  }

  predicate KindAdmits(k: Kind, t: Value) {
    match k
    case Named(n) => t == Str(n)
    case AnyOf(ns) => t in ns
    case Untyped => true
  }

  /** `isValidAdapter(name, type, dependencies)`. `deps` is `None` when the
      caller passes no `dependencies` argument (it is then `undefined`). */
  function IsValidAdapter(adapters: Adapters, name: string, t: Value, deps: Option<bool>): (ok: bool)
    ensures !HasKey(adapters, name) ==> !ok
    ensures deps.None? ==> !ok
    ensures ok <==> HasKey(adapters, name)
                    && KindAdmits(Find(adapters, name).value.kind, t)
                    && deps == Some(Truthy(Find(adapters, name).value.dependencies))
  {
    match Find(adapters, name)
    case None => false
    case Some(d) =>
      if d.kind.Named? && Str(d.kind.name) != t then false
      else if d.kind.AnyOf? && t !in d.kind.names then false
      else Some(Truthy(d.dependencies)) == deps
  }

  /** The type `forEachValidAdapter` filters on: a device's `_type`, or the
      argument itself when it is not an object. */
  function QueryType(arg: Value): Value {
    match arg
    case Obj(ps) => Get(ps, "_type")
    case List(_) => Undef
    case _ => arg
  }

  /** `forEachValidAdapter(device, dependencies, callback)`: walks the
      catalog in key order, calls back once for each selected detector and
      returns how many it called back for. `visited` lists the names the
      callback received, in order. */
  method ForEachValidAdapter(adapters: Adapters, device: Value, deps: Option<bool>)
    returns (cnt: nat, visited: seq<string>)
    requires DistinctKeys(adapters)
    ensures cnt == |visited|
    ensures forall a :: a in visited <==> HasKey(adapters, a) && IsValidAdapter(adapters, a, QueryType(device), deps)
    ensures forall i, j :: 0 <= i < j < |visited| ==> visited[i] != visited[j]
    ensures forall i, j :: 0 <= i < j < |visited| ==>
              IndexIn(adapters, visited[i]) < IndexIn(adapters, visited[j])
  {
    var t := QueryType(device);
    cnt := 0;
    visited := [];
    var k := 0;
    while k < |adapters|
      invariant k <= |adapters|
      invariant cnt == |visited|
      invariant VisitedUpTo(adapters, t, deps, k, visited)
    {
      var a := adapters[k].0;
      var ok := IsValidAdapter(adapters, a, t, deps);
      VisitStep(adapters, t, deps, k, visited, ok);
      if ok {
        visited := visited + [a];
        cnt := cnt + 1;
      }
      k := k + 1;
    }
    forall a ensures a in visited <==> HasKey(adapters, a) && IsValidAdapter(adapters, a, t, deps) {
    }
    forall i, j | 0 <= i < j < |visited| ensures visited[i] != visited[j] {
    }
  }

  /** After the first `k` catalog entries: `visited` holds exactly the valid
      ones among them, in catalog order. */
  ghost predicate VisitedUpTo(adapters: Adapters, t: Value, deps: Option<bool>, k: nat, visited: seq<string>) {
    && (forall a :: a in visited <==>
          (exists m :: 0 <= m < k && m < |adapters| && adapters[m].0 == a) && IsValidAdapter(adapters, a, t, deps))
    && (forall i :: 0 <= i < |visited| ==> IndexIn(adapters, visited[i]) < k)
    && (forall i, j :: 0 <= i < j < |visited| ==> IndexIn(adapters, visited[i]) < IndexIn(adapters, visited[j]))
  }

  lemma VisitStep(adapters: Adapters, t: Value, deps: Option<bool>, k: nat, visited: seq<string>, ok: bool)
    requires DistinctKeys(adapters) && k < |adapters|
    requires VisitedUpTo(adapters, t, deps, k, visited)
    requires ok == IsValidAdapter(adapters, adapters[k].0, t, deps)
    ensures VisitedUpTo(adapters, t, deps, k + 1, visited + if ok then [adapters[k].0] else [])
  {
    IndexInAt(adapters, k);
  }

  /** Position of a key in the catalog's enumeration order. */
  function IndexIn(adapters: Adapters, a: string): (i: nat)
    ensures i <= |adapters|
    ensures i < |adapters| <==> HasKey(adapters, a)
    ensures i < |adapters| ==> adapters[i].0 == a
  {
    if adapters == [] then 0
    else if adapters[0].0 == a then 0
    else 1 + IndexIn(adapters[1..], a)
  }

  lemma IndexInAt(adapters: Adapters, k: nat)
    requires DistinctKeys(adapters) && k < |adapters|
    ensures IndexIn(adapters, adapters[k].0) == k
  {
    var i := IndexIn(adapters, adapters[k].0);
    assert adapters[i].0 == adapters[k].0;
  }
}

=== FILE: completion.dfy ===
/** Completion bookkeeping of one scan (main.js): each discovery method's
    wrapper (`Method`) reports "done" to the scan (`Browse`) exactly once,
    and the scan takes its device snapshot once every method has reported.
    Timers and intervals are events here; their delays are not modelled. */
module Completion {
  import opened Js
  import opened Registry
  import opened Snapshot

  // ---------------------------------------------------------------------------
  // Method

  /** The wrapper's private state: how often `done` was called, whether a
      timer and a progress interval are pending, the progress and the count
      of reports. */
  datatype MethodState = MethodState(doneCalled: nat, timer: bool, interval: bool, progress: int, foundCount: nat)

  const Fresh: MethodState := MethodState(0, false, false, 0, 0)

  /** What a call did to the wrapper, and whether it told the scan
      (`parent.done(self)`). */
  datatype Outcome = Outcome(state: MethodState, notified: bool)

  /** Things that happen to one method wrapper. */
  datatype MethodEvent =
    | Done                               // `done()`, also reached as `close()`
    | AddNull                            // `addDevice(null)`
    | Add(obs: Observation)              // `addDevice(newDevice)`
    | Arm(timeout: bool, progress: bool) // `setTimeout(t, options)`, flags: `options.timeout/progress !== false`
    | TimerFires(closeIsDone: bool)      // the method timer expires; `close` may be replaced by the method
    | Tick                               // the progress interval fires

  /** `Method.done(err)`: only the first call has an effect. */
  function MethodDone(m: MethodState): (o: Outcome)
    ensures o.notified <==> m.doneCalled == 0
    ensures o.state.doneCalled > 0
    ensures o.notified ==> !o.state.timer && !o.state.interval && o.state.progress == 100
    ensures !o.notified ==> o.state.(doneCalled := m.doneCalled) == m
    ensures o.state.foundCount == m.foundCount
  {
    var m1 := m.(doneCalled := m.doneCalled + 1);
    if m.doneCalled > 0 then Outcome(m1, false)
    else Outcome(m1.(timer := false, interval := false, progress := 100), true)
  }

  function MethodStep(m: MethodState, e: MethodEvent): (o: Outcome)
    // the scan hears of a method exactly when its wrapper first becomes done
    ensures o.notified <==> m.doneCalled == 0 && o.state.doneCalled > 0
    ensures m.doneCalled > 0 ==> o.state.doneCalled > 0
    // a pending timer always ends the method, whatever `close` does
    ensures e.TimerFires? && m.timer ==> o.state.doneCalled > 0
    ensures e.Add? ==> o.state.foundCount == m.foundCount + 1
    ensures !e.Add? ==> o.state.foundCount == m.foundCount
  {
    match e
    case Done => MethodDone(m)
    case AddNull => MethodDone(m)
    case Add(_) => Outcome(m.(foundCount := m.foundCount + 1), false)
    case Arm(t, p) => Outcome(m.(timer := m.timer || t, interval := m.interval || p), false)
    case TimerFires(closeIsDone) =>
      if !m.timer then Outcome(m, false)
      else
        var m1 := m.(timer := false);
        var o1 := if closeIsDone then MethodDone(m1) else Outcome(m1, false);
        if o1.state.doneCalled == 0 then MethodDone(o1.state)
        else o1
    case Tick =>
      if m.interval then Outcome(m.(progress := m.progress + 5), false) else Outcome(m, false)
  }

  /** `addDevice(null)` is `done()`, and a second `done()` changes nothing
      but the call counter. */
  lemma DoneIdempotent(m: MethodState)
    ensures MethodStep(m, AddNull) == MethodStep(m, Done)
    ensures var o1 := MethodStep(m, Done);
            var o2 := MethodStep(o1.state, Done);
            !o2.notified && o2.state.(doneCalled := o1.state.doneCalled) == o1.state
  {
  }

  // ---------------------------------------------------------------------------
  // Browse

  /** A method as the scan starts it: its report source and type. */
  datatype MethodInfo = MethodInfo(source: string, mtype: Option<string>)

  /** The scan: `count` methods still running (-1 once the snapshot is
      taken), the wrappers, the registry and its count, and every device
      list handed on so far. */
  datatype Browse = Browse(count: int, methods: seq<MethodState>, devices: Devices, foundCount: nat, lists: seq<seq<Device>>)

  /** `Browse.done(method)`: a method's report lowers the count; reaching
      zero takes the snapshot and parks the count at -1. */
  function BrowseDone(b: Browse, fromMethod: bool): (r: Browse)
    ensures r.methods == b.methods && r.devices == b.devices && r.foundCount == b.foundCount
    ensures (if fromMethod then b.count - 1 else b.count) == 0 ==>
              r.count == -1 && r.lists == b.lists + [DeviceList(b.devices)]
    ensures (if fromMethod then b.count - 1 else b.count) != 0 ==>
              r.count == (if fromMethod then b.count - 1 else b.count) && r.lists == b.lists
  {
    var count := if fromMethod then b.count - 1 else b.count;
    if count == 0 then b.(count := -1, lists := b.lists + [DeviceList(b.devices)])
    else b.(count := count)
  }

  /** The scan as `new Browse()` leaves it: every method fresh, the
      registry empty, and with no method at all the snapshot taken at once. */
  function Start(infos: seq<MethodInfo>): (b: Browse)
    ensures |b.methods| == |infos|
    ensures forall i :: 0 <= i < |b.methods| ==> b.methods[i] == Fresh
    ensures b.devices == []
    ensures |infos| == 0 ==> b.lists == [[Localhost]]
    ensures |infos| > 0 ==> b.lists == [] && b.count == |infos|
  {
    var b0 := Browse(|infos|, seq(|infos|, _ => Fresh), [], 0, []);
    if |infos| == 0 then
      assert Pairs([]) == [];
      BrowseDone(b0, false)
    else b0
  }

  /** An event fits method `i`: only the UPnP method reports an `_upnp`
      payload. */
  predicate Fits(infos: seq<MethodInfo>, i: nat, e: MethodEvent)
    requires i < |infos|
  {
    e.Add? ==> UpnpFromUpnp(e.obs, infos[i].mtype)
  }

  /** One event of method `i`. A report goes to `Browse.addDevice` with the
      method's source and type; the method's first `done` reports to the
      scan. */
  function Step(b: Browse, infos: seq<MethodInfo>, i: nat, e: MethodEvent): (r: Browse)
    requires |infos| == |b.methods| && i < |b.methods| && Fits(infos, i, e)
    ensures r.methods == b.methods[i := MethodStep(b.methods[i], e).state]
    // a report is stored and counted as `addDevice` does it
    ensures e.Add? ==>
              var added := AddDevice(b.devices, b.foundCount, e.obs, infos[i].source, infos[i].mtype);
              r.devices == added.devices && r.foundCount == added.foundCount && r.count == b.count && r.lists == b.lists
    ensures !e.Add? ==> r.devices == b.devices && r.foundCount == b.foundCount
    // the scan's count moves only when the method first becomes done
    ensures !MethodStep(b.methods[i], e).notified ==> r.count == b.count && r.lists == b.lists
    ensures MethodStep(b.methods[i], e).notified ==> r == BrowseDone(b.(methods := r.methods), true)
  {
    var o := MethodStep(b.methods[i], e);
    var b1 := b.(methods := b.methods[i := o.state]);
    var b2 :=
      if e.Add? then
        var added := AddDevice(b1.devices, b1.foundCount, e.obs, infos[i].source, infos[i].mtype);
        b1.(devices := added.devices, foundCount := added.foundCount)
      else b1;
    if o.notified then BrowseDone(b2, true) else b2
  }

  /** What was found, reported or handed on stays so. */
  ghost predicate Keeps(b: Browse, r: Browse) {
    && b.lists <= r.lists
    && |r.methods| == |b.methods|
    && (forall j :: 0 <= j < |b.methods| && b.methods[j].doneCalled > 0 ==> r.methods[j].doneCalled > 0)
    && (forall t, a :: Lookup(b.devices, t, a).Some? ==> Lookup(r.devices, t, a).Some?)
    && r.foundCount >= b.foundCount
    && (Keyed(b.devices) ==> Keyed(r.devices))
  }

  lemma StepKeeps(b: Browse, infos: seq<MethodInfo>, i: nat, e: MethodEvent)
    requires |infos| == |b.methods| && i < |b.methods| && Fits(infos, i, e)
    ensures Keeps(b, Step(b, infos, i, e))
  {
    var r := Step(b, infos, i, e);
    if e.Add? {
      var ak := JsString(Get(e.obs.fields, "_addr"));
      forall t, a | Lookup(b.devices, t, a).Some? ensures Lookup(r.devices, t, a).Some? {
        if (t, a) == (TypeKey(infos[i].mtype), ak) && Truthy(Get(e.obs.fields, "_addr")) {
        }
      }
    }
  }

  /** Every event of a run names a method and fits it. */
  predicate RunFits(infos: seq<MethodInfo>, evs: seq<(nat, MethodEvent)>) {
    forall k :: 0 <= k < |evs| ==> evs[k].0 < |infos| && Fits(infos, evs[k].0, evs[k].1)
  }

  /** A run of method events, each naming its method. Device lists, done
      methods and stored devices are never lost along the way. */
  function Run(b: Browse, infos: seq<MethodInfo>, evs: seq<(nat, MethodEvent)>): (r: Browse)
    requires |infos| == |b.methods| && RunFits(infos, evs)
    ensures Keeps(b, r)
    decreases |evs|
  {
    if evs == [] then b
    else
      var b1 := Step(b, infos, evs[0].0, evs[0].1);
      StepKeeps(b, infos, evs[0].0, evs[0].1);
      assert RunFits(infos, evs[1..]) by {
        forall k | 0 <= k < |evs[1..]| ensures evs[1..][k].0 < |infos| && Fits(infos, evs[1..][k].0, evs[1..][k].1) {
          assert evs[1..][k] == evs[k + 1];
        }
      }
      Run(b1, infos, evs[1..])
  }

  /** How many methods have not reported done. */
  function Undone(ms: seq<MethodState>): (n: nat)
    ensures n <= |ms|
    ensures n == 0 <==> forall i :: 0 <= i < |ms| ==> ms[i].doneCalled > 0
  {
    if ms == [] then 0
    else (if ms[0].doneCalled == 0 then 1 else 0) + Undone(ms[1..])
  }

  lemma {:induction false} UndoneUpdate(ms: seq<MethodState>, i: nat, m: MethodState)
    requires i < |ms|
    requires ms[i].doneCalled > 0 ==> m.doneCalled > 0
    ensures Undone(ms[i := m]) == Undone(ms) - (if ms[i].doneCalled == 0 && m.doneCalled > 0 then 1 else 0)
  {
    if i > 0 {
      UndoneUpdate(ms[1..], i - 1, m);
      assert ms[i := m][1..] == ms[1..][i - 1 := m];
    } else {
      assert ms[i := m][1..] == ms[1..];
    }
  }

  lemma UndoneFresh(n: nat)
    ensures Undone(seq(n, _ => Fresh)) == n
  {
    if n > 0 {
      assert seq(n, _ => Fresh)[1..] == seq(n - 1, _ => Fresh);
      UndoneFresh(n - 1);
    }
  }

  /** Before the snapshot the count is the number of methods still running;
      after it the count is -1, every method is done and there is exactly
      one device list. */
  predicate Consistent(b: Browse) {
    || (b.lists == [] && b.count == Undone(b.methods) && b.count > 0)
    || (|b.lists| == 1 && b.count == -1 && Undone(b.methods) == 0)
  }

  lemma StartConsistent(infos: seq<MethodInfo>)
    ensures Consistent(Start(infos))
  {
    var b := Start(infos);
    assert b.methods == seq(|infos|, _ => Fresh);
    UndoneFresh(|infos|);
  }

  lemma StepConsistent(b: Browse, infos: seq<MethodInfo>, i: nat, e: MethodEvent)
    requires |infos| == |b.methods| && i < |b.methods| && Fits(infos, i, e)
    requires Consistent(b)
    ensures Consistent(Step(b, infos, i, e))
  {
    var o := MethodStep(b.methods[i], e);
    UndoneUpdate(b.methods, i, o.state);
  }

  lemma {:induction false} RunConsistent(b: Browse, infos: seq<MethodInfo>, evs: seq<(nat, MethodEvent)>)
    requires |infos| == |b.methods| && RunFits(infos, evs)
    requires Consistent(b)
    ensures Consistent(Run(b, infos, evs))
    decreases |evs|
  {
    if evs != [] {
      StepConsistent(b, infos, evs[0].0, evs[0].1);
      var b1 := Step(b, infos, evs[0].0, evs[0].1);
      assert RunFits(infos, evs[1..]) by {
        forall k | 0 <= k < |evs[1..]| ensures evs[1..][k].0 < |infos| && Fits(infos, evs[1..][k].0, evs[1..][k].1) {
          assert evs[1..][k] == evs[k + 1];
        }
      }
      RunConsistent(b1, infos, evs[1..]);
    }
  }

  /** Whatever the methods do, the scan hands on at most one device list,
      and it has handed one on exactly when every method has reported done. */
  lemma SnapshotOnce(infos: seq<MethodInfo>, evs: seq<(nat, MethodEvent)>)
    requires RunFits(infos, evs)
    ensures var b := Run(Start(infos), infos, evs);
            && |b.lists| <= 1
            && (|b.lists| == 1 <==> forall i :: 0 <= i < |b.methods| ==> b.methods[i].doneCalled > 0)
  {
    StartConsistent(infos);
    RunConsistent(Start(infos), infos, evs);
  }

  // ---------------------------------------------------------------------------
  // browse

  /** A method module: whether it has a `browse` entry, its `source` (empty
      when unset) and its `type`. */
  datatype MethodModule = MethodModule(hasBrowse: bool, source: string, mtype: Option<string>)

  /** `Object.keys(methods).filter(m => methods[m].browse && (!options ||
      options.includes(m)))`; `options` is `None` when falsy. */
  function Selected(modules: seq<(string, MethodModule)>, options: Option<seq<string>>): (r: seq<(string, MethodModule)>)
    ensures forall e :: e in r <==> e in modules && e.1.hasBrowse && (options.None? || e.0 in options.value)
    ensures |r| <= |modules|
    // `Object.keys` names each method once, and so does the selection
    ensures DistinctKeys(modules) ==> DistinctKeys(r)
  {
    if modules == [] then []
    else
      var rest := Selected(modules[1..], options);
      assert forall e :: e in modules <==> e == modules[0] || e in modules[1..];
      if modules[0].1.hasBrowse && (options.None? || modules[0].0 in options.value) then
        SelectedFirst(modules, rest);
        [modules[0]] + rest
      else rest
  }

  /** A method put in front of a selection from the later methods keeps
      the names distinct. */
  lemma SelectedFirst(modules: seq<(string, MethodModule)>, rest: seq<(string, MethodModule)>)
    requires modules != [] && forall e :: e in rest ==> e in modules[1..]
    requires DistinctKeys(modules) ==> DistinctKeys(rest)
    ensures DistinctKeys(modules) ==> DistinctKeys([modules[0]] + rest)
  {
    if DistinctKeys(modules) {
      forall j | 0 <= j < |rest| ensures rest[j].0 != modules[0].0 {
        assert rest[j] in rest;
        var k :| 0 <= k < |modules[1..]| && modules[1..][k] == rest[j];
        assert modules[k + 1] == rest[j];
      }
    }
  }

  /** `module.source || methodName` and the module's type. */
  function Info(e: (string, MethodModule)): MethodInfo {
    MethodInfo(if e.1.source == "" then e.0 else e.1.source, e.1.mtype)
  }

  datatype Reply = Rejected(message: string) | Started(scan: Browse)

  /** The `isRunning` flag after a request, and the reply. */
  datatype Requested = Requested(running: bool, reply: Reply)

  /** `browse(options, callback)`: refused while a scan runs, otherwise a
      fresh scan over the selected methods, and the flag is raised. */
  function Request(running: bool, modules: seq<(string, MethodModule)>, options: Option<seq<string>>): (r: Requested)
    ensures r.running
    ensures running <==> r.reply == Rejected("Yet running")
    ensures r.reply.Started? ==> r.reply.scan.devices == [] && |r.reply.scan.methods| == |Selected(modules, options)|
    ensures r.reply.Started? && Selected(modules, options) == [] ==> r.reply.scan.lists == [[Localhost]]
  {
    if running then Requested(true, Rejected("Yet running"))
    else
      var ms := Selected(modules, options);
      Requested(true, Started(Start(seq(|ms|, k requires 0 <= k < |ms| => Info(ms[k])))))
  }
}

=== FILE: deconz.dfy ===
/** The deconz detector (lib/adapters/deconz.js): for a device found by
    UPnP it looks through the device's `_upnp` answers for a Phoscon
    gateway id and proposes one deconz instance for the address, unless an
    instance for that bridge already exists. The helpers of tools.js it
    calls are parameters the model does not look into. */
module Deconz {
  import opened Js
  import opened Catalog
  import opened Registry

  /** The detector options this detector reads and writes. `existing`
      stands for whatever `tools.findInstance` searches besides the new
      proposals. */
  datatype Context = Context(existing: seq<Value>, newInstances: seq<Value>, language: Value)

  /** The tools.js helpers: `findInstance(options, adapter, predicate)`
      reports whether some instance satisfies the predicate,
      `getNextInstanceID(adapter, options)` names a new instance and
      `translate(language, text, argument)` produces the comment text. */
  datatype Tools = Tools(
    findInstance: (Context, string, Value -> bool) -> bool,
    nextInstanceId: (string, Context) -> Value,
    translate: (Value, string, string) -> Value)

  /** What `detect` ends with: its callback `(null, found, ip)` and the
      options, or a `TypeError` when it reads a property of an undefined
      `_upnp` entry. */
  datatype Detection = Reported(found: bool, ip: string, ctx: Context) | Threw(ctx: Context)

  /** The predicate `addDeconz` hands to `findInstance`: an instance whose
      `native.bridge` is this address or whose `native.webServer` is the
      device's `_name`. */
  function Matches(ip: string, name: Value): Value -> bool {
    obj => Truthy(obj) && Truthy(Member(obj, "native"))
           && (Member(Member(obj, "native"), "bridge") == Str(ip) || Member(Member(obj, "native"), "webServer") == name)
  }

  /** The deconz instance proposed for a bridge at `ip`. */
  function DeconzInstance(id: Value, ip: string, add: Value): Value {
    Obj([
      ("_id", id),
      ("common", Obj([("name", Str("deconz"))])),
      ("native", Obj([("bridge", Str(ip))])),
      ("comment", Obj([
        ("add", List([add])),
        ("inputs", List([Obj([("name", Str("native.user")), ("def", Str("")), ("type", Str("text")), ("title", Str("user"))])]))
      ]))
    ])
  }

  /** An instance for this bridge is already known. */
  predicate Known(ip: string, device: Device, ctx: Context, tools: Tools) {
    tools.findInstance(ctx, "deconz", Matches(ip, Get(device.fields, "_name")))
  }

  /** The options after proposing an instance for the bridge at `ip`. */
  function Proposed(ip: string, ctx: Context, tools: Tools): Context {
    var inst := DeconzInstance(tools.nextInstanceId("deconz", ctx), ip, tools.translate(ctx.language, "for %s", ip));
    ctx.(newInstances := ctx.newInstances + [inst])
  }

  /** `addDeconz(ip, device, options)`: proposes an instance unless one is
      known, and says whether it did. */
  function AddDeconz(ip: string, device: Device, ctx: Context, tools: Tools): (r: (bool, Context))
    ensures r.0 <==> !Known(ip, device, ctx, tools)
    ensures !r.0 ==> r.1 == ctx
    ensures r.0 ==> r.1.existing == ctx.existing && r.1.language == ctx.language
                    && |r.1.newInstances| == |ctx.newInstances| + 1
                    && r.1.newInstances[..|ctx.newInstances|] == ctx.newInstances
  {
    if Known(ip, device, ctx, tools) then (false, ctx)
    else
      var c := Proposed(ip, ctx, tools);
      assert c.newInstances[..|ctx.newInstances|] == ctx.newInstances;
      (true, c)
  }

  /** The proposal carries the id `getNextInstanceID` gave, the name
      'deconz', the bridge address and a single input for the user. */
  lemma ProposalShape(ip: string, ctx: Context, tools: Tools)
    ensures var inst := Proposed(ip, ctx, tools).newInstances[|ctx.newInstances|];
            && Member(inst, "_id") == tools.nextInstanceId("deconz", ctx)
            && Member(Member(inst, "common"), "name") == Str("deconz")
            && Member(Member(inst, "native"), "bridge") == Str(ip)
            && Member(Member(inst, "comment"), "inputs").List?
            && |Member(Member(inst, "comment"), "inputs").items| == 1
            && Member(Member(Member(inst, "comment"), "inputs").items[0], "name") == Str("native.user")
  {
    var id := tools.nextInstanceId("deconz", ctx);
    var add := tools.translate(ctx.language, "for %s", ip);
    assert Proposed(ip, ctx, tools).newInstances[|ctx.newInstances|] == DeconzInstance(id, ip, add);
    InstanceFields(id, ip, add);
    InstanceInput(id, ip, add);
  }

  lemma InstanceFields(id: Value, ip: string, add: Value)
    ensures var p := DeconzInstance(id, ip, add).props;
            && Find(p, "_id") == Some(id)
            && Find(p, "common") == Some(Obj([("name", Str("deconz"))]))
            && Find(p, "native") == Some(Obj([("bridge", Str(ip))]))
            && Find(p, "comment") == Some(p[3].1)
  {
    var p := DeconzInstance(id, ip, add).props;
    assert "native"[0] != "common"[0];
    assert Find(p, "common") == Find(p[1..], "common");
    assert Find(p, "native") == Find(p[1..], "native") == Find(p[2..], "native");
    assert Find(p, "comment") == Find(p[1..], "comment") == Find(p[2..], "comment") == Find(p[3..], "comment");
  }

  lemma InstanceInput(id: Value, ip: string, add: Value)
    ensures var c := DeconzInstance(id, ip, add).props[3].1;
            && c.Obj?
            && Find(c.props, "inputs") == Some(List([Obj([("name", Str("native.user")), ("def", Str("")), ("type", Str("text")), ("title", Str("user"))])]))
  {
    var c := DeconzInstance(id, ip, add).props[3].1.props;
    assert Find(c, "inputs") == Find(c[1..], "inputs");
  }

  /** A UPnP answer that names a Phoscon gateway. */
  predicate Phoscon(answer: Value) {
    Truthy(Member(answer, "GWID.PHOSCON.DE")) || Truthy(Member(answer, "gwid.phoscon.de"))
  }

  /** `detect(ip, device, options, callback)`. Answers are examined in
      order until an instance is proposed; an undefined answer examined
      before that throws. The callback receives `ip` and whether an
      instance was proposed, which happens exactly when some answer names
      a Phoscon gateway and no instance is known; at most one is
      proposed, and otherwise the options are left alone. */
  method Detect(ip: string, device: Device, ctx: Context, tools: Tools) returns (r: Detection)
    ensures r.Threw? ==> r.ctx == ctx
    ensures r.Threw? <==> exists j :: 0 <= j < |device.upnp| && device.upnp[j] == Undef
                            && (Known(ip, device, ctx, tools) || forall m :: 0 <= m < j ==> !Phoscon(device.upnp[m]))
    ensures r.Reported? ==> r.ip == ip
    ensures r.Reported? ==> (r.found <==> !Known(ip, device, ctx, tools) && exists j :: 0 <= j < |device.upnp| && Phoscon(device.upnp[j]))
    ensures r.Reported? && r.found ==> r.ctx == Proposed(ip, ctx, tools)
    ensures r.Reported? && !r.found ==> r.ctx == ctx
  {
    var upnp := device.upnp;
    var found := false;
    var cur := ctx;
    var j := 0;
    ghost var known := Known(ip, device, ctx, tools);
    ghost var proposal := Proposed(ip, ctx, tools);
    while j < |upnp|
      invariant j <= |upnp|
      invariant !found ==> cur == ctx
      invariant !found ==> forall m :: 0 <= m < j ==> upnp[m] != Undef && (known || !Phoscon(upnp[m]))
      invariant found ==> !known && cur == proposal
      invariant found ==> exists p :: 0 <= p < j && Phoscon(upnp[p]) && forall m :: 0 <= m < p ==> upnp[m] != Undef
    {
      if !found {
        if upnp[j] == Undef {
          return Threw(ctx);
        }
        if Phoscon(upnp[j]) {
          var res := AddDeconz(ip, device, cur, tools);
          found, cur := res.0, res.1;
        }
      }
      j := j + 1;
    }
    if found {
      NoThrowAfterProposal(ip, device, ctx, tools);
    }
    return Reported(found, ip, cur);
  }

  /** Once a proposal is made, no later undefined answer is examined. */
  lemma NoThrowAfterProposal(ip: string, device: Device, ctx: Context, tools: Tools)
    requires !Known(ip, device, ctx, tools)
    requires exists p :: 0 <= p < |device.upnp| && Phoscon(device.upnp[p]) && forall m :: 0 <= m < p ==> device.upnp[m] != Undef
    ensures !exists j :: 0 <= j < |device.upnp| && device.upnp[j] == Undef
                         && (Known(ip, device, ctx, tools) || forall m :: 0 <= m < j ==> !Phoscon(device.upnp[m]))
  {
    var p :| 0 <= p < |device.upnp| && Phoscon(device.upnp[p]) && forall m :: 0 <= m < p ==> device.upnp[m] != Undef;
    forall j | 0 <= j < |device.upnp| && device.upnp[j] == Undef
      ensures exists m :: 0 <= m < j && Phoscon(device.upnp[m])
    {
      assert device.upnp[p] != Undef;
    }
  }

  /** The detector's declared metadata: `type = ['upnp']`, `timeout = 500`,
      no `dependencies`. */
  const Descriptor: Detector := Detector(AnyOf([Str("upnp")]), Undef, Num(500))

  /** The detector is selected exactly for upnp devices in the phase
      without dependencies, and is given 500 ms. */
  lemma DescriptorSelection(t: Value, deps: Option<bool>)
    ensures IsValidAdapter([("deconz", Descriptor)], "deconz", t, deps) <==> t == Str("upnp") && deps == Some(false)
    ensures EffectiveTimeout(Descriptor) == Num(500)
  {
    assert Find([("deconz", Descriptor)], "deconz") == Some(Descriptor);
  }
}

=== FILE: finish.dfy ===
/** The end of a scan (`discoveryEnd` in main.js, after every device has
    been analysed): passwords a detector left in clear text are encrypted
    with the system secret, and acknowledgements are carried forward from
    the proposals stored by the previous scan. The object store is a
    parameter: `systemConfig` and `stored` are what the two reads
    returned (`Undef` when nothing), and `adapter.encrypt` is a function
    the model does not look into. */
module Finish {
  import opened Js
  import opened Reconcile

  /** The secret used when the system configuration has none. */
  const DefaultSecret: string := "Zgfr56gFe87jJOM"

  /** `systemConfig && systemConfig.native && systemConfig.native.secret`,
      or the default secret when that is falsy. */
  function Secret(systemConfig: Value): (s: Value)
    ensures Truthy(s)
    ensures Truthy(Member(Member(systemConfig, "native"), "secret")) ==> s == Member(Member(systemConfig, "native"), "secret")
    ensures !Truthy(Member(Member(systemConfig, "native"), "secret")) ==> s == Str(DefaultSecret)
  {
    var configured := Member(Member(systemConfig, "native"), "secret");
    if Truthy(configured) then configured else Str(DefaultSecret)
  }

  /** `adapter.encrypt(secret, value)`. */
  type Encrypt = (Value, Value) -> Value

  /** How many entries of an attribute list name property `k`. */
  function Occurrences(list: seq<Value>, k: string): (c: nat)
    ensures c <= |list|
    ensures c == 0 <==> forall j :: 0 <= j < |list| ==> JsString(list[j]) != k
  {
    if list == [] then 0
    else (if JsString(list[0]) == k then 1 else 0) + Occurrences(list[1..], k)
  }

  /** `x` encrypted `n` times over, stopping as soon as it is falsy. */
  function Repeat(encrypt: Encrypt, secret: Value, x: Value, n: nat): Value
    decreases n
  {
    if n == 0 || !Truthy(x) then x else Repeat(encrypt, secret, encrypt(secret, x), n - 1)
  }

  /** `if (native[a]) native[a] = encrypt(secret, native[a])`: one
      attribute of the list. */
  function EncryptAttr(native: Props, a: string, secret: Value, encrypt: Encrypt): Props {
    var v := Get(native, a);
    if Truthy(v) then Put(native, a, encrypt(secret, v)) else native
  }

  /** `list.forEach(attr => ...)` over the attribute list, in order. */
  function EncryptAttrs(native: Props, list: seq<Value>, secret: Value, encrypt: Encrypt): Props
    decreases |list|
  {
    if list == [] then native
    else EncryptAttrs(EncryptAttr(native, JsString(list[0]), secret, encrypt), list[1..], secret, encrypt)
  }

  /** One attribute: only property `a` changes, and only when truthy; the
      keys and their order stay. */
  lemma AttrStep(native: Props, a: string, secret: Value, encrypt: Encrypt, k: string)
    ensures Keys(EncryptAttr(native, a, secret, encrypt)) == Keys(native)
    ensures Get(EncryptAttr(native, a, secret, encrypt), k)
         == if k == a && Truthy(Get(native, k)) then encrypt(secret, Get(native, k)) else Get(native, k)
  {
    var v := Get(native, a);
    if Truthy(v) {
      assert HasKey(native, a) by { assert Find(native, a).Some?; }
    }
  }

  /** The pass keeps the properties and their order. */
  lemma {:induction false} EncryptAttrsKeys(native: Props, list: seq<Value>, secret: Value, encrypt: Encrypt)
    ensures Keys(EncryptAttrs(native, list, secret, encrypt)) == Keys(native)
    decreases |list|
  {
    if list != [] {
      AttrStep(native, JsString(list[0]), secret, encrypt, "");
      EncryptAttrsKeys(EncryptAttr(native, JsString(list[0]), secret, encrypt), list[1..], secret, encrypt);
    }
  }

  /** Each property ends up encrypted once per time the list names it, as
      long as it stays truthy. */
  lemma {:induction false} EncryptAttrsGet(native: Props, list: seq<Value>, secret: Value, encrypt: Encrypt, k: string)
    ensures Get(EncryptAttrs(native, list, secret, encrypt), k)
         == Repeat(encrypt, secret, Get(native, k), Occurrences(list, k))
    decreases |list|
  {
    if list != [] {
      var a := JsString(list[0]);
      var next := EncryptAttr(native, a, secret, encrypt);
      assert EncryptAttrs(native, list, secret, encrypt) == EncryptAttrs(next, list[1..], secret, encrypt);
      assert Occurrences(list, k) == (if a == k then 1 else 0) + Occurrences(list[1..], k);
      AttrStep(native, a, secret, encrypt, k);
      EncryptAttrsGet(next, list[1..], secret, encrypt, k);
      RepeatShift(encrypt, secret, Get(native, k), Get(next, k), Occurrences(list[1..], k), Occurrences(list, k), a == k);
    } else {
      assert Occurrences(list, k) == 0;
    }
  }

  /** Encrypting first and repeating once less is repeating once more. */
  lemma RepeatShift(encrypt: Encrypt, secret: Value, v: Value, w: Value, m: nat, c: nat, hit: bool)
    requires w == if hit && Truthy(v) then encrypt(secret, v) else v
    requires c == if hit then m + 1 else m
    ensures Repeat(encrypt, secret, w, m) == Repeat(encrypt, secret, v, c)
  {
    if hit {
      assert Repeat(encrypt, secret, v, m + 1)
          == if Truthy(v) then Repeat(encrypt, secret, encrypt(secret, v), m) else v;
    }
  }

  /** What the encryption pass needs of one proposal: a truthy
      `encryptedNativeLegacy` is an array, and when it names anything the
      proposal has an object `native`. */
  predicate EncryptReady(inst: Value) {
    && inst.Obj?
    && var list := Member(inst, "encryptedNativeLegacy");
       Truthy(list) ==> list.List? && (list.items != [] ==> Member(inst, "native").Obj?)
  }

  /** The encryption pass on one proposal: a truthy `encryptedNativeLegacy`
      is deleted and, when it names anything, `native` is re-encrypted. */
  function EncryptInstance(inst: Value, secret: Value, encrypt: Encrypt): (r: Value)
    requires EncryptReady(inst)
    ensures r.Obj?
    ensures !Truthy(Member(inst, "encryptedNativeLegacy")) ==> r == inst
  {
    var list := Member(inst, "encryptedNativeLegacy");
    if !Truthy(list) then inst
    else
      var cleared := Remove(inst.props, "encryptedNativeLegacy");
      if list.items == [] then Obj(cleared)
      else Obj(Put(cleared, "native", Obj(EncryptAttrs(Member(inst, "native").props, list.items, secret, encrypt))))
  }

  lemma GetPutOther(d: Props, k: string, v: Value, k': string)
    requires k' != k
    ensures Get(Put(d, k, v), k') == Get(d, k')
  {
  }

  lemma GetRemoveOther(d: Props, k: string, k': string)
    requires k' != k
    ensures Get(Remove(d, k), k') == Get(d, k')
  {
  }

  /** A truthy attribute list is deleted from the proposal. */
  lemma EncryptDropsList(inst: Value, secret: Value, encrypt: Encrypt)
    requires EncryptReady(inst) && Truthy(Member(inst, "encryptedNativeLegacy"))
    ensures !HasKey(EncryptInstance(inst, secret, encrypt).props, "encryptedNativeLegacy")
  {
    var list := Member(inst, "encryptedNativeLegacy");
    var cleared := Remove(inst.props, "encryptedNativeLegacy");
    if list.items != [] {
      var p := Put(cleared, "native", Obj(EncryptAttrs(Member(inst, "native").props, list.items, secret, encrypt)));
      assert Find(p, "encryptedNativeLegacy") == Find(cleared, "encryptedNativeLegacy");
    }
  }

  /** Every property other than `native` and the list itself is left as
      it was. */
  lemma EncryptKeepsOthers(inst: Value, secret: Value, encrypt: Encrypt, k: string)
    requires EncryptReady(inst) && k != "encryptedNativeLegacy" && k != "native"
    ensures Member(EncryptInstance(inst, secret, encrypt), k) == Member(inst, k)
  {
    var list := Member(inst, "encryptedNativeLegacy");
    if Truthy(list) {
      var cleared := Remove(inst.props, "encryptedNativeLegacy");
      GetRemoveOther(inst.props, "encryptedNativeLegacy", k);
      if list.items != [] {
        GetPutOther(cleared, "native", Obj(EncryptAttrs(Member(inst, "native").props, list.items, secret, encrypt)), k);
      }
    }
  }

  /** Each `native` property is encrypted once per time the list names
      it, as long as it stays truthy. */
  lemma EncryptNative(inst: Value, secret: Value, encrypt: Encrypt, a: string)
    requires EncryptReady(inst) && Truthy(Member(inst, "encryptedNativeLegacy")) && Member(inst, "native").Obj?
    ensures Member(Member(EncryptInstance(inst, secret, encrypt), "native"), a)
         == Repeat(encrypt, secret, Member(Member(inst, "native"), a),
                   Occurrences(Member(inst, "encryptedNativeLegacy").items, a))
  {
    var list := Member(inst, "encryptedNativeLegacy");
    var cleared := Remove(inst.props, "encryptedNativeLegacy");
    if list.items != [] {
      var native := Member(inst, "native").props;
      EncryptAttrsGet(native, list.items, secret, encrypt, a);
    } else {
      GetRemoveOther(inst.props, "encryptedNativeLegacy", "native");
    }
  }

  /** The pass keeps what acknowledgement needs of a proposal. */
  lemma EncryptKeepsShape(inst: Value, secret: Value, encrypt: Encrypt)
    requires EncryptReady(inst) && IsNew(inst)
    ensures IsNew(EncryptInstance(inst, secret, encrypt))
  {
    var r := EncryptInstance(inst, secret, encrypt);
    EncryptKeepsOthers(inst, secret, encrypt, "comment");
    EncryptKeepsOthers(inst, secret, encrypt, "_id");
    var list := Member(inst, "encryptedNativeLegacy");
    if Truthy(list) {
      var cleared := Remove(inst.props, "encryptedNativeLegacy");
      assert DistinctKeys(cleared);
    }
  }

  /** `options.newInstances.forEach(...)`: the encryption pass over every
      proposal. */
  function EncryptAll(news: seq<Value>, secret: Value, encrypt: Encrypt): (e: seq<Value>)
    requires forall n :: 0 <= n < |news| ==> EncryptReady(news[n])
    ensures |e| == |news|
    ensures forall n :: 0 <= n < |news| ==> e[n] == EncryptInstance(news[n], secret, encrypt)
  {
    seq(|news|, n requires 0 <= n < |news| => EncryptInstance(news[n], secret, encrypt))
  }

  /** `obj.native.newInstances || []` for the stored discovery object, or
      for the empty one built when nothing was stored. */
  function StoredOld(stored: Value): (olds: seq<Value>)
    ensures !Truthy(stored) ==> olds == []
    ensures Truthy(stored) && Member(Member(stored, "native"), "newInstances").List? ==>
              olds == Member(Member(stored, "native"), "newInstances").items
  {
    var previous := if Truthy(stored) then Member(Member(stored, "native"), "newInstances") else Undef;
    if previous.List? then previous.items else []
  }

  /** What `discoveryEnd` needs of the stored discovery object: a stored
      object has a `native`, and every old proposal is an object with a
      `comment` (and a string `_id` when acknowledged). */
  predicate StoredReady(stored: Value) {
    && (Truthy(stored) ==> Member(stored, "native") != Undef)
    && forall j :: 0 <= j < |StoredOld(stored)| ==> IsOld(StoredOld(stored)[j])
  }

  /** The end of a scan: encrypt, then carry acknowledgements forward from
      the stored proposals. Every proposal keeps its place and its id and
      is either its encrypted form or that form acknowledged. For each
      text, the first encrypted proposals with that text are acknowledged,
      as many as there are stored acknowledged proposals with it, and no
      others; with nothing stored nothing is acknowledged. */
  method DiscoveryEnd(news: seq<Value>, systemConfig: Value, stored: Value, encrypt: Encrypt)
    returns (r: seq<Value>)
    requires forall n :: 0 <= n < |news| ==> EncryptReady(news[n])
    requires StoredReady(stored)
    requires AckedKeys(StoredOld(stored)) != [] ==> forall n :: 0 <= n < |news| ==> IsNew(news[n])
    ensures |r| == |news|
    ensures forall n :: 0 <= n < |r| ==> Member(r[n], "_id") == Member(news[n], "_id")
    ensures var e := EncryptAll(news, Secret(systemConfig), encrypt);
            forall n :: 0 <= n < |r| ==> r[n] == e[n] || (Member(e[n], "comment").Obj? && r[n] == SetAck(e[n]))
    // acknowledged exactly when fewer earlier proposals share its text
    // than there are stored acknowledged proposals with it
    ensures var e := EncryptAll(news, Secret(systemConfig), encrypt);
            forall n :: 0 <= n < |r| ==>
              (r[n] != e[n] <==> Rank(Texts(e), n) < multiset(AckedKeys(StoredOld(stored)))[NewKey(e[n])])
    ensures var e := EncryptAll(news, Secret(systemConfig), encrypt);
            forall n :: (0 <= n < |r| && NewKey(e[n]) in AckedKeys(StoredOld(stored))
                         && forall m :: 0 <= m < n ==> NewKey(e[m]) != NewKey(e[n])) ==> r[n] != e[n]
    ensures var e := EncryptAll(news, Secret(systemConfig), encrypt);
            forall n :: 0 <= n < |r| && r[n] != e[n] ==> NewKey(e[n]) in AckedKeys(StoredOld(stored))
    ensures !Truthy(stored) ==> r == EncryptAll(news, Secret(systemConfig), encrypt)
  {
    var secret := Secret(systemConfig);
    var encrypted := EncryptAll(news, secret, encrypt);
    forall n | 0 <= n < |encrypted| ensures Member(encrypted[n], "_id") == Member(news[n], "_id") {
      EncryptKeepsOthers(news[n], secret, encrypt, "_id");
    }
    if AckedKeys(StoredOld(stored)) != [] {
      forall n | 0 <= n < |encrypted| ensures IsNew(encrypted[n]) {
        EncryptKeepsShape(news[n], secret, encrypt);
      }
    }
    r := CarryAcks(encrypted, StoredOld(stored));
    CarryNothing(encrypted, StoredOld(stored), r);
    CarryFirst(encrypted, StoredOld(stored), r);
  }
}

=== FILE: js.dfy ===
/** The JavaScript values that discovery records, detector descriptors and
    instance proposals are made of, and the few operations of the language
    the orchestrator relies on: truthiness, property lookup, assignment,
    `delete`, `String(x)` and JSON serialisation.

    A JavaScript object is an association list of (key, value) pairs in
    insertion order, since the merge walks properties in order and JSON text
    depends on that order. `null` is not part of the model. */
module Js {

  datatype Option<+T> = None | Some(value: T)

  datatype Value =
    | Undef
    | Bool(b: bool)
    | Num(n: int)
    | Str(s: string)
    | List(items: seq<Value>)
    | Obj(props: seq<(string, Value)>)

  /** A JavaScript object seen as its own properties, in insertion order. */
  type Props = seq<(string, Value)>

  /** `!!v` */
  predicate Truthy(v: Value) {
    match v
    case Undef => false
    case Bool(b) => b
    case Num(n) => n != 0
    case Str(s) => s != ""
    case List(_) => true
    case Obj(_) => true
  }

  // ---------------------------------------------------------------------------
  // Objects as association lists (generic, so the device registry can use them)

  function Keys<V>(d: seq<(string, V)>): (ks: seq<string>)
    ensures |ks| == |d|
    ensures forall i :: 0 <= i < |d| ==> ks[i] == d[i].0
  {
    if d == [] then [] else [d[0].0] + Keys(d[1..])
  }

  predicate HasKey<V>(d: seq<(string, V)>, k: string) {
    exists i :: 0 <= i < |d| && d[i].0 == k
  }

  predicate DistinctKeys<V>(d: seq<(string, V)>) {
    forall i, j :: 0 <= i < j < |d| ==> d[i].0 != d[j].0
  }

  /** Property lookup: the first property with that key. */
  function Find<V>(d: seq<(string, V)>, k: string): (r: Option<V>)
    ensures r.Some? <==> HasKey(d, k)
    ensures r.Some? ==> exists i :: 0 <= i < |d| && d[i] == (k, r.value)
  {
    if d == [] then None
    else if d[0].0 == k then Some(d[0].1)
    else
      var r := Find(d[1..], k);
      assert r.Some? ==> exists i :: 0 <= i < |d| - 1 && d[1..][i] == (k, r.value);
      r
  }

  /** `o[k]`: the value of property `k`, `undefined` when absent. */
  function Get(d: Props, k: string): Value {
    match Find(d, k)
    case Some(v) => v
    case None => Undef
  }

  /** Property assignment `o[k] = v`: an existing property keeps its place,
      a new one is appended. */
  function Put<V>(d: seq<(string, V)>, k: string, v: V): (r: seq<(string, V)>)
    ensures Find(r, k) == Some(v)
    ensures forall k' :: k' != k ==> Find(r, k') == Find(d, k')
    ensures HasKey(d, k) ==> |r| == |d| && Keys(r) == Keys(d)
    ensures !HasKey(d, k) ==> r == d + [(k, v)]
    ensures DistinctKeys(d) ==> DistinctKeys(r)
  {
    AssignFind(d, k, v, k);
    assert forall k' :: k' != k ==> Find(Assign(d, k, v), k') == Find(d, k') by {
      forall k' ensures k' != k ==> Find(Assign(d, k, v), k') == Find(d, k') {
        AssignFind(d, k, v, k');
      }
    }
    if HasKey(d, k) then
      AssignKeys(d, k, v);
      assert DistinctKeys(d) ==> DistinctKeys(Assign(d, k, v)) by {
        if DistinctKeys(d) {
          KeysDistinct(d, Assign(d, k, v));
        }
      }
      Assign(d, k, v)
    else
      AssignAppends(d, k, v);
      Assign(d, k, v)
  }

  /** The walk behind `Put`. */
  function Assign<V>(d: seq<(string, V)>, k: string, v: V): seq<(string, V)> {
    if d == [] then [(k, v)]
    else if d[0].0 == k then [(k, v)] + d[1..]
    else [d[0]] + Assign(d[1..], k, v)
  }

  lemma {:induction false} AssignFind<V>(d: seq<(string, V)>, k: string, v: V, k': string)
    ensures Find(Assign(d, k, v), k') == if k' == k then Some(v) else Find(d, k')
  {
    var r := Assign(d, k, v);
    if d == [] {
      assert r[1..] == [];
    } else if d[0].0 == k {
      assert r[1..] == d[1..];
    } else {
      assert r[1..] == Assign(d[1..], k, v);
      AssignFind(d[1..], k, v, k');
    }
  }

  lemma {:induction false} AssignKeys<V>(d: seq<(string, V)>, k: string, v: V)
    requires HasKey(d, k)
    ensures Keys(Assign(d, k, v)) == Keys(d)
  {
    var r := Assign(d, k, v);
    if d[0].0 == k {
      assert r[1..] == d[1..];
    } else {
      assert Find(d, k) == Find(d[1..], k);
      AssignKeys(d[1..], k, v);
      assert r[1..] == Assign(d[1..], k, v);
    }
    assert Keys(r) == [r[0].0] + Keys(r[1..]);
    assert Keys(d) == [d[0].0] + Keys(d[1..]);
  }

  lemma {:induction false} AssignAppends<V>(d: seq<(string, V)>, k: string, v: V)
    requires !HasKey(d, k)
    ensures Assign(d, k, v) == d + [(k, v)]
  {
    if d != [] {
      assert d[0].0 != k;
      assert Find(d, k) == Find(d[1..], k);
      AssignAppends(d[1..], k, v);
      assert d + [(k, v)] == [d[0]] + (d[1..] + [(k, v)]);
    }
  }

  /** Distinctness of keys depends only on the list of keys. */
  lemma KeysDistinct<V>(d: seq<(string, V)>, e: seq<(string, V)>)
    requires Keys(d) == Keys(e) && DistinctKeys(d)
    ensures DistinctKeys(e)
  {
    forall i, j | 0 <= i < j < |e| ensures e[i].0 != e[j].0 {
      assert Keys(e)[i] == d[i].0 && Keys(e)[j] == d[j].0;
    }
  }

  /** `delete o[k]`. */
  function Remove<V>(d: seq<(string, V)>, k: string): (r: seq<(string, V)>)
    ensures !HasKey(r, k)
    ensures forall k' :: k' != k ==> Find(r, k') == Find(d, k')
    ensures forall e :: e in r ==> e in d
    ensures |r| <= |d|
    ensures DistinctKeys(d) ==> DistinctKeys(r)
  {
    if d == [] then []
    else if d[0].0 == k then Remove(d[1..], k)
    else
      var r := Remove(d[1..], k);
      assert DistinctKeys(d) ==> !HasKey(r, d[0].0) by {
        assert Find(r, d[0].0) == Find(d[1..], d[0].0);
      }
      [d[0]] + r
  }

  /** With distinct keys, every property is the one lookup finds. */
  lemma FindEntry<V>(d: seq<(string, V)>, m: nat)
    requires DistinctKeys(d) && m < |d|
    ensures Find(d, d[m].0) == Some(d[m].1)
  {
    if m > 0 && d[0].0 != d[m].0 {
      assert d[1..][m - 1] == d[m];
      FindEntry(d[1..], m - 1);
    }
  }

  /** Assigning a property the value it already has changes nothing. */
  lemma {:induction false} PutExisting<V>(d: seq<(string, V)>, k: string, v: V)
    requires Find(d, k) == Some(v)
    ensures Put(d, k, v) == d
  {
    if d[0].0 == k {
      assert d == [d[0]] + d[1..];
    } else {
      PutExisting(d[1..], k, v);
      assert d == [d[0]] + d[1..];
    }
  }

  lemma {:induction false} PutTwice<V>(d: seq<(string, V)>, k: string, v: V)
    ensures Put(Put(d, k, v), k, v) == Put(d, k, v)
  {
    PutExisting(Put(d, k, v), k, v);
  }

  /** Every object, at any depth, has distinct keys, as JavaScript objects do. */
  predicate WellFormed(v: Value)
    decreases v, 1
  {
    match v
    case List(xs) => forall i :: 0 <= i < |xs| ==> WellFormed(xs[i])
    case Obj(ps) => DistinctKeys(ps) && forall i :: 0 <= i < |ps| ==> WellFormed(ps[i].1)
    case _ => true
  }

  /** `v[k]` on any value: `undefined` unless `v` is an object (a string's
      or an array's own properties are not used here). */
  function Member(v: Value, k: string): Value {
    if v.Obj? then Get(v.props, k) else Undef
  }

  // ---------------------------------------------------------------------------
  // String(v), used where a value becomes a property key

  function DigitChar(d: nat): char
    requires d < 10
  {
    "0123456789"[d]
  }

  function NatToString(n: nat): (s: string)
    ensures |s| > 0
    decreases n
  {
    if n < 10 then [DigitChar(n)] else NatToString(n / 10) + [DigitChar(n % 10)]
  }

  /** `String(v)`. An array is joined with ",", `undefined` elements giving
      the empty string. */
  function JsString(v: Value): string
    decreases v, 1
  {
    match v
    case Undef => "undefined"
    case Bool(b) => if b then "true" else "false"
    case Num(n) => if n < 0 then "-" + NatToString(-n) else NatToString(n)
    case Str(s) => s
    case List(xs) => JoinFrom(v, 0)
    case Obj(_) => "[object Object]"
  }

  function JoinFrom(v: Value, i: nat): string
    requires v.List? && i <= |v.items|
    decreases v, 0, |v.items| - i
  {
    if i == |v.items| then ""
    else
      var e := v.items[i];
      var s := if e == Undef then "" else JsString(e);
      if i + 1 == |v.items| then s else s + "," + JoinFrom(v, i + 1)
  }

  // ---------------------------------------------------------------------------
  // JSON serialisation

  /** The value `JSON.parse(JSON.stringify(v))` describes: properties whose
      value is `undefined` are dropped, at every depth. Inside an array
      `undefined` is written as `null`, which nothing else in this model
      produces, so it is kept as `Undef`. Two objects with distinct keys
      serialise to the same JSON text exactly when their `Canon` are equal. */
  function Canon(v: Value): Value
    decreases v, 1
  {
    match v
    case List(xs) => List(CanonItems(v, 0))
    case Obj(ps) => Obj(CanonProps(v, 0))
    case _ => v
  }

  function CanonItems(v: Value, i: nat): (r: seq<Value>)
    requires v.List? && i <= |v.items|
    ensures |r| == |v.items| - i
    decreases v, 0, |v.items| - i
  {
    if i == |v.items| then [] else [Canon(v.items[i])] + CanonItems(v, i + 1)
  }

  function CanonProps(v: Value, i: nat): Props
    requires v.Obj? && i <= |v.props|
    decreases v, 0, |v.props| - i
  {
    if i == |v.props| then []
    else
      var p := v.props[i];
      (if p.1 == Undef then [] else [(p.0, Canon(p.1))]) + CanonProps(v, i + 1)
  }

  /** A value in JSON normal form: no property anywhere holds `undefined`. */
  predicate IsCanonical(v: Value)
    decreases v, 1
  {
    match v
    case List(xs) => forall i :: 0 <= i < |xs| ==> IsCanonical(xs[i])
    case Obj(ps) => forall i :: 0 <= i < |ps| ==> ps[i].1 != Undef && IsCanonical(ps[i].1)
    case _ => true
  }

  lemma {:induction false} CanonIsCanonical(v: Value)
    ensures IsCanonical(Canon(v))
    decreases v, 1
  {
    match v
    case List(xs) =>
      forall i | 0 <= i < |xs| ensures IsCanonical(CanonItems(v, 0)[i]) {
        CanonItemsAt(v, 0, i);
        CanonIsCanonical(xs[i]);
      }
    case Obj(ps) =>
      CanonPropsCanonical(v, 0);
    case _ =>
  }

  lemma {:induction false} CanonItemsAt(v: Value, i: nat, j: nat)
    requires v.List? && i <= j < |v.items|
    ensures CanonItems(v, i)[j - i] == Canon(v.items[j])
    decreases |v.items| - i
  {
    if i < j {
      CanonItemsAt(v, i + 1, j);
    }
  }

  lemma {:induction false} CanonPropsCanonical(v: Value, i: nat)
    requires v.Obj? && i <= |v.props|
    ensures IsCanonical(Obj(CanonProps(v, i)))
    decreases v, 0, |v.props| - i
  {
    if i < |v.props| {
      var p := v.props[i];
      CanonPropsCanonical(v, i + 1);
      if p.1 != Undef {
        CanonIsCanonical(p.1);
      }
    }
  }

  /** A JSON round trip changes nothing more once the value is in normal
      form: `Canon` is the identity on canonical values. */
  lemma {:induction false} CanonicalFixed(v: Value)
    requires IsCanonical(v)
    ensures Canon(v) == v
    decreases v, 1
  {
    match v
    case List(xs) =>
      forall i | 0 <= i < |xs| ensures CanonItems(v, 0)[i] == xs[i] {
        CanonItemsAt(v, 0, i);
        CanonicalFixed(xs[i]);
      }
    case Obj(ps) =>
      CanonPropsFixed(v, 0);
    case _ =>
  }

  lemma {:induction false} CanonPropsFixed(v: Value, i: nat)
    requires v.Obj? && i <= |v.props| && IsCanonical(v)
    ensures CanonProps(v, i) == v.props[i..]
    decreases v, 0, |v.props| - i
  {
    if i < |v.props| {
      CanonPropsFixed(v, i + 1);
      CanonicalFixed(v.props[i].1);
      assert v.props[i..] == [v.props[i]] + v.props[i + 1..];
    }
  }

  /** Serialising twice is serialising once. */
  lemma CanonIdempotent(v: Value)
    ensures Canon(Canon(v)) == Canon(v)
  {
    CanonIsCanonical(v);
    CanonicalFixed(Canon(v));
  }

  /** Serialising drops properties but never invents one. */
  lemma {:induction false} CanonPropsKeys(v: Value, i: nat, k: string)
    requires v.Obj? && i <= |v.props|
    requires HasKey(CanonProps(v, i), k)
    ensures HasKey(v.props[i..], k)
    decreases |v.props| - i
  {
    var p := v.props[i];
    var rest := CanonProps(v, i + 1);
    var head: Props := if p.1 == Undef then [] else [(p.0, Canon(p.1))];
    assert CanonProps(v, i) == head + rest;
    if p.0 != k {
      var j :| 0 <= j < |head + rest| && (head + rest)[j].0 == k;
      assert rest[j - |head|].0 == k;
      CanonPropsKeys(v, i + 1, k);
      var m :| 0 <= m < |v.props[i + 1..]| && v.props[i + 1..][m].0 == k;
      assert v.props[i..][m + 1].0 == k;
    } else {
      assert v.props[i..][0].0 == k;
    }
  }

  lemma {:induction false} CanonPropsDistinct(v: Value, i: nat)
    requires v.Obj? && i <= |v.props| && DistinctKeys(v.props)
    ensures DistinctKeys(CanonProps(v, i))
    decreases |v.props| - i
  {
    if i < |v.props| {
      var p := v.props[i];
      var rest := CanonProps(v, i + 1);
      CanonPropsDistinct(v, i + 1);
      if p.1 != Undef {
        if HasKey(rest, p.0) {
          CanonPropsKeys(v, i + 1, p.0);
        }
        var r := [(p.0, Canon(p.1))] + rest;
        forall a, b | 0 <= a < b < |r| ensures r[a].0 != r[b].0 {
          if a == 0 {
            assert r[b] == rest[b - 1];
          } else {
            assert r[a] == rest[a - 1] && r[b] == rest[b - 1];
          }
        }
      }
    }
  }

  /** A looked-up property after serialising: gone when it was `undefined`,
      serialised otherwise. */
  function CanonFound(o: Option<Value>): Option<Value> {
    match o
    case None => None
    case Some(x) => if x == Undef then None else Some(Canon(x))
  }

  lemma {:induction false} CanonPropsFind(v: Value, i: nat, k: string)
    requires v.Obj? && i <= |v.props| && DistinctKeys(v.props)
    ensures Find(CanonProps(v, i), k) == CanonFound(Find(v.props[i..], k))
    decreases |v.props| - i
  {
    if i < |v.props| {
      var p := v.props[i];
      var rest := CanonProps(v, i + 1);
      var head: Props := if p.1 == Undef then [] else [(p.0, Canon(p.1))];
      assert CanonProps(v, i) == head + rest;
      assert v.props[i..][0] == p && v.props[i..][1..] == v.props[i + 1..];
      if p.0 == k {
        assert Find(v.props[i..], k) == Some(p.1);
        if p.1 == Undef {
          if HasKey(rest, k) {
            CanonPropsKeys(v, i + 1, k);
          }
          assert Find(rest, k) == None;
          assert Find(CanonProps(v, i), k) == None;
        } else {
          assert (head + rest)[0] == (k, Canon(p.1));
          assert Find(head + rest, k) == Some(Canon(p.1));
          assert Find(CanonProps(v, i), k) == Some(Canon(p.1));
        }
      } else {
        CanonPropsFind(v, i + 1, k);
        assert Find(v.props[i..], k) == Find(v.props[i + 1..], k);
        if head != [] {
          assert (head + rest)[0].0 != k && (head + rest)[1..] == rest;
          assert Find(head + rest, k) == Find(rest, k);
        } else {
          assert head + rest == rest;
        }
        assert Find(CanonProps(v, i), k) == Find(rest, k);
      }
    } else {
      assert CanonProps(v, i) == [] && v.props[i..] == [];
    }
  }

  /** The property a serialised object holds, from the original's. */
  lemma CanonMember(v: Value, k: string)
    requires v.Obj? && DistinctKeys(v.props)
    ensures Member(Canon(v), k) == Canon(Member(v, k))
  {
    CanonPropsFind(v, 0, k);
    assert v.props[0..] == v.props;
  }
}

=== FILE: order.dfy ===
/** The order `Array.prototype.sort()` uses when no comparator is given:
    strings compared character by character, a proper prefix first. The
    orchestrator sorts the registry's type keys and address keys this way
    before it hands the device list on. */
module Order {

  predicate Less(a: string, b: string)
    decreases |a|
  {
    if a == [] then b != []
    else if b == [] then false
    else a[0] < b[0] || (a[0] == b[0] && Less(a[1..], b[1..]))
  }

  predicate LessEq(a: string, b: string) {
    a == b || Less(a, b)
  }

  lemma {:induction false} LessIrreflexive(a: string)
    ensures !Less(a, a)
    decreases |a|
  {
    if a != [] {
      LessIrreflexive(a[1..]);
    }
  }

  lemma {:induction false} LessAsymmetric(a: string, b: string)
    ensures !(Less(a, b) && Less(b, a))
    decreases |a|
  {
    if a != [] && b != [] && a[0] == b[0] {
      LessAsymmetric(a[1..], b[1..]);
    }
  }

  lemma {:induction false} LessTransitive(a: string, b: string, c: string)
    requires Less(a, b) && Less(b, c)
    ensures Less(a, c)
    decreases |a|
  {
    if a != [] && a[0] == b[0] && b[0] == c[0] {
      LessTransitive(a[1..], b[1..], c[1..]);
    }
  }

  lemma {:induction false} LessTotal(a: string, b: string)
    ensures a == b || Less(a, b) || Less(b, a)
    decreases |a|
  {
    if a != [] && b != [] && a[0] == b[0] {
      LessTotal(a[1..], b[1..]);
      if a[1..] == b[1..] {
        assert a == [a[0]] + a[1..] && b == [b[0]] + b[1..];
      }
    }
  }

  lemma LessEqTransitive(a: string, b: string, c: string)
    requires LessEq(a, b) && LessEq(b, c)
    ensures LessEq(a, c)
  {
    if a != b && b != c {
      LessTransitive(a, b, c);
    }
  }

  predicate Sorted(s: seq<string>) {
    forall i, j :: 0 <= i < j < |s| ==> LessEq(s[i], s[j])
  }

  predicate StrictlySorted(s: seq<string>) {
    forall i, j :: 0 <= i < j < |s| ==> Less(s[i], s[j])
  }

  /** Places `x` into the sorted `s`, before the first element above it. */
  function Insert(x: string, s: seq<string>): (r: seq<string>)
    requires Sorted(s)
    ensures Sorted(r)
    ensures multiset(r) == multiset(s) + multiset{x}
    ensures |r| == |s| + 1
  {
    if s == [] then [x]
    else if LessEq(x, s[0]) then
      forall j | 0 <= j < |s| ensures LessEq(x, s[j]) {
        LessEqTransitive(x, s[0], s[j]);
      }
      SortedCons(x, s);
      [x] + s
    else
      var rest := Insert(x, s[1..]);
      assert LessEq(s[0], x) by { LessTotal(x, s[0]); }
      forall j | 0 <= j < |rest| ensures LessEq(s[0], rest[j]) {
        BoundedAfterInsert(x, s, rest, j);
      }
      SortedCons(s[0], rest);
      assert s == [s[0]] + s[1..];
      [s[0]] + rest
  }

  lemma SortedCons(x: string, s: seq<string>)
    requires Sorted(s) && forall j :: 0 <= j < |s| ==> LessEq(x, s[j])
    ensures Sorted([x] + s)
  {
    forall i, j | 0 <= i < j < |[x] + s| ensures LessEq(([x] + s)[i], ([x] + s)[j]) {
      if i > 0 {
        assert ([x] + s)[i] == s[i - 1];
      }
      assert ([x] + s)[j] == s[j - 1];
    }
  }

  /** Every element of `Insert(x, s[1..])` is `x` or an element of `s`
      after its head, so it is not below the head. */
  lemma BoundedAfterInsert(x: string, s: seq<string>, rest: seq<string>, j: nat)
    requires Sorted(s) && s != [] && LessEq(s[0], x)
    requires multiset(rest) == multiset(s[1..]) + multiset{x} && j < |rest|
    ensures LessEq(s[0], rest[j])
  {
    assert rest[j] in multiset(rest);
    if rest[j] != x {
      assert rest[j] in multiset(s[1..]);
      var k :| 0 <= k < |s[1..]| && s[1..][k] == rest[j];
      assert s[k + 1] == rest[j];
    }
  }

  /** `keys.sort()`: a sorted permutation of `keys`. */
  function Sort(keys: seq<string>): (r: seq<string>)
    ensures Sorted(r)
    ensures multiset(r) == multiset(keys)
    ensures |r| == |keys|
  {
    if keys == [] then []
    else
      assert keys == [keys[0]] + keys[1..];
      Insert(keys[0], Sort(keys[1..]))
  }

  /** Object keys are distinct, so their sorted order is strict. */
  lemma SortDistinct(keys: seq<string>)
    requires forall i, j :: 0 <= i < j < |keys| ==> keys[i] != keys[j]
    ensures StrictlySorted(Sort(keys))
  {
    var r := Sort(keys);
    forall i, j | 0 <= i < j < |r| ensures Less(r[i], r[j]) {
      if r[i] == r[j] {
        TwiceInMultiset(r, i, j);
        MultisetAtMostOnce(keys, r[i]);
      }
    }
  }

  lemma TwiceInMultiset(r: seq<string>, i: nat, j: nat)
    requires i < j < |r| && r[i] == r[j]
    ensures multiset(r)[r[i]] >= 2
  {
    assert r == r[..j] + r[j..];
    assert r[..j][i] == r[i];
    assert r[j..][0] == r[i];
    assert multiset(r) == multiset(r[..j]) + multiset(r[j..]);
  }

  lemma {:induction false} MultisetAtMostOnce(keys: seq<string>, x: string)
    requires forall i, j :: 0 <= i < j < |keys| ==> keys[i] != keys[j]
    ensures multiset(keys)[x] <= 1
  {
    if keys != [] {
      assert keys == [keys[0]] + keys[1..];
      MultisetAtMostOnce(keys[1..], x);
      if keys[0] == x {
        assert x !in keys[1..];
      }
    }
  }
}

=== FILE: phase.dfy ===
/** The first analysis phase of one device in `analyseDevice` (main.js,
    the non-serial branch): every selected detector gets a timer and a call
    to `detect`; a shared counter goes down once per detector that answers,
    times out or throws, and the dependency phase (`analyseDeviceDependencies`)
    starts when it reaches zero. The counter is then set to `false`, which
    stops it for good. */
module PhaseOne {

  /** `count`: a number, or `false` once the dependency phase has started. */
  datatype Count = Counting(n: int) | Stopped

  /** What a detector can do: call back, let its timer expire, or throw
      out of `detect`. */
  datatype Event = Callback(i: nat) | Timeout(i: nat) | Throw(i: nat)

  /** The counter, which detectors still have a pending timer, and how
      often the dependency phase has been started. */
  datatype Phase = Phase(count: Count, pending: seq<bool>, starts: nat)

  /** Number of detectors whose timer is still pending. */
  function Pending(p: seq<bool>): (n: nat)
    ensures n <= |p|
    ensures n == 0 <==> forall i :: 0 <= i < |p| ==> !p[i]
  {
    if p == [] then 0 else (if p[0] then 1 else 0) + Pending(p[1..])
  }

  lemma {:induction false} PendingClear(p: seq<bool>, i: nat)
    requires i < |p| && p[i]
    ensures Pending(p[i := false]) == Pending(p) - 1
  {
    if i > 0 {
      PendingClear(p[1..], i - 1);
      assert p[i := false][1..] == p[1..][i - 1 := false];
    } else {
      assert p[i := false][1..] == p[1..];
    }
  }

  lemma {:induction false} PendingAll(n: nat)
    ensures Pending(seq(n, _ => true)) == n
  {
    if n > 0 {
      assert seq(n, _ => true)[1..] == seq(n - 1, _ => true);
      PendingAll(n - 1);
    }
  }

  /** After `n` detectors were launched. With none the dependency phase
      starts at once (the count stays 0, not `false`). */
  function Launch(n: nat): (p: Phase)
    ensures p.count == Counting(n)
    ensures |p.pending| == n && forall i :: 0 <= i < n ==> p.pending[i]
    ensures p.starts == (if n == 0 then 1 else 0)
  {
    Phase(Counting(n), seq(n, _ => true), if n == 0 then 1 else 0)
  }

  /** `if (count !== false && !--count) { analyseDeviceDependencies(...); count = false; }` */
  function Decrement(p: Phase): (r: Phase)
    ensures r.pending == p.pending
    ensures p.count == Counting(1) ==> r.count == Stopped && r.starts == p.starts + 1
    ensures p.count != Counting(1) ==> r.starts == p.starts
  {
    match p.count
    case Stopped => p
    case Counting(n) =>
      if n - 1 == 0 then p.(count := Stopped, starts := p.starts + 1)
      else p.(count := Counting(n - 1))
  }

  /** One event as the source handles it: a callback or a timeout counts
      only while the detector's timer is pending and clears it; a throw
      counts unconditionally and leaves the timer pending. */
  function Step(p: Phase, e: Event): (r: Phase)
    requires e.i < |p.pending|
    // a throw leaves the timer pending; an answer or timeout clears it
    ensures r.pending == if e.Throw? then p.pending else p.pending[e.i := false]
    // a throw always counts; an answer or timeout only while the timer is pending
    ensures e.Throw? || p.pending[e.i] ==> r.count == Decrement(p).count && r.starts == Decrement(p).starts
    ensures !e.Throw? && !p.pending[e.i] ==> r == p
  {
    match e
    case Callback(i) => if p.pending[i] then Decrement(p.(pending := p.pending[i := false])) else p
    case Timeout(i) => if p.pending[i] then Decrement(p.(pending := p.pending[i := false])) else p
    case Throw(i) => Decrement(p)
  }

  /** The repaired handling: a throw clears the timer, as a callback does,
      and counts only once per detector. */
  function FixedStep(p: Phase, e: Event): (r: Phase)
    requires e.i < |p.pending|
    // every event clears the detector's timer, a throw included
    ensures r.pending == p.pending[e.i := false]
    // so each detector is counted once: one fewer pending timer exactly
    // when the event counts
    ensures Pending(r.pending) == Pending(p.pending) - (if p.pending[e.i] then 1 else 0)
    ensures p.pending[e.i] ==> r.count == Decrement(p).count && r.starts == Decrement(p).starts
    ensures !p.pending[e.i] ==> r.count == p.count && r.starts == p.starts
  {
    if p.pending[e.i] then
      PendingClear(p.pending, e.i);
      Decrement(p.(pending := p.pending[e.i := false]))
    else
      assert p.pending[e.i := false] == p.pending;
      p
  }

  predicate InRange(evs: seq<Event>, n: nat) {
    forall k :: 0 <= k < |evs| ==> evs[k].i < n
  }

  function Run(p: Phase, evs: seq<Event>): (r: Phase)
    requires InRange(evs, |p.pending|)
    ensures |r.pending| == |p.pending|
    decreases |evs|
  {
    if evs == [] then p else Run(Step(p, evs[0]), evs[1..])
  }

  function FixedRun(p: Phase, evs: seq<Event>): (r: Phase)
    requires InRange(evs, |p.pending|)
    ensures |r.pending| == |p.pending|
    decreases |evs|
  {
    if evs == [] then p else FixedRun(FixedStep(p, evs[0]), evs[1..])
  }

  // ---------------------------------------------------------------------------
  // At most one start, whatever happens

  /** Once started the count is `false`, or 0 or less when no detector was
      launched, so it can never come down to zero again. */
  predicate AtMostOnce(p: Phase) {
    && p.starts <= 1
    && (p.starts == 0 ==> p.count.Counting? && p.count.n >= 1)
    && (p.starts == 1 ==> p.count == Stopped || p.count.n <= 0)
  }

  lemma {:induction false} RunAtMostOnce(p: Phase, evs: seq<Event>)
    requires InRange(evs, |p.pending|)
    requires AtMostOnce(p)
    ensures AtMostOnce(Run(p, evs))
    decreases |evs|
  {
    if evs != [] {
      var q := Step(p, evs[0]);
      assert AtMostOnce(q);
      assert InRange(evs[1..], |q.pending|) by {
        forall k | 0 <= k < |evs[1..]| ensures evs[1..][k].i < |q.pending| {
          assert evs[1..][k] == evs[k + 1];
        }
      }
      RunAtMostOnce(q, evs[1..]);
    }
  }

  /** The dependency phase starts at most once per device, whatever order
      the detectors answer, time out or throw in. */
  lemma StartsAtMostOnce(n: nat, evs: seq<Event>)
    requires InRange(evs, n)
    ensures Run(Launch(n), evs).starts <= 1
  {
    RunAtMostOnce(Launch(n), evs);
  }

  // ---------------------------------------------------------------------------
  // Exactly when every detector has reported, as long as nothing throws

  /** Before the start the counter equals the number of pending timers;
      after it no timer is pending. */
  predicate Tracks(p: Phase) {
    && p.starts <= 1
    && (p.starts == 0 ==> p.count == Counting(Pending(p.pending)) && Pending(p.pending) > 0)
    && (p.starts == 1 ==> Pending(p.pending) == 0)
  }

  lemma TracksAfterClear(p: Phase, i: nat)
    requires Tracks(p) && i < |p.pending| && p.pending[i]
    ensures Tracks(Decrement(p.(pending := p.pending[i := false])))
  {
    PendingClear(p.pending, i);
  }

  lemma LaunchTracks(n: nat)
    ensures Tracks(Launch(n))
  {
    PendingAll(n);
  }

  lemma {:induction false} FixedRunTracks(p: Phase, evs: seq<Event>)
    requires InRange(evs, |p.pending|)
    requires Tracks(p)
    ensures Tracks(FixedRun(p, evs))
    decreases |evs|
  {
    if evs != [] {
      var e := evs[0];
      if p.pending[e.i] {
        TracksAfterClear(p, e.i);
      }
      var q := FixedStep(p, e);
      assert InRange(evs[1..], |q.pending|) by {
        forall k | 0 <= k < |evs[1..]| ensures evs[1..][k].i < |q.pending| {
          assert evs[1..][k] == evs[k + 1];
        }
      }
      FixedRunTracks(q, evs[1..]);
    }
  }

  /** With the repaired throw handling the dependency phase starts exactly
      when every launched detector has answered, timed out or thrown. */
  lemma FixedStartsWhenAllReported(n: nat, evs: seq<Event>)
    requires InRange(evs, n)
    ensures var p := FixedRun(Launch(n), evs);
            p.starts <= 1 && (p.starts == 1 <==> forall i :: 0 <= i < n ==> !p.pending[i])
  {
    LaunchTracks(n);
    FixedRunTracks(Launch(n), evs);
  }

  predicate NoThrow(evs: seq<Event>) {
    forall k :: 0 <= k < |evs| ==> !evs[k].Throw?
  }

  /** Without throws the source's handling and the repaired one agree. */
  lemma {:induction false} RunWithoutThrow(p: Phase, evs: seq<Event>)
    requires InRange(evs, |p.pending|) && NoThrow(evs)
    ensures Run(p, evs) == FixedRun(p, evs)
    decreases |evs|
  {
    if evs != [] {
      assert Step(p, evs[0]) == FixedStep(p, evs[0]);
      var q := Step(p, evs[0]);
      assert InRange(evs[1..], |q.pending|) && NoThrow(evs[1..]) by {
        forall k | 0 <= k < |evs[1..]| ensures evs[1..][k].i < |q.pending| && !evs[1..][k].Throw? {
          assert evs[1..][k] == evs[k + 1];
        }
      }
      RunWithoutThrow(q, evs[1..]);
    }
  }

  /** As written, when no detector throws, the dependency phase starts
      exactly when every detector has answered or timed out. */
  lemma StartsWhenAllReported(n: nat, evs: seq<Event>)
    requires InRange(evs, n) && NoThrow(evs)
    ensures var p := Run(Launch(n), evs);
            p.starts <= 1 && (p.starts == 1 <==> forall i :: 0 <= i < n ==> !p.pending[i])
  {
    RunWithoutThrow(Launch(n), evs);
    FixedStartsWhenAllReported(n, evs);
  }

  /** As written, a detector that throws before calling back is counted
      twice, once for the throw and once more when its still-pending timer
      expires: with two detectors the dependency phase starts while the
      second one has not reported at all. */
  lemma ThrowThenTimeoutStartsEarly()
    ensures var p := Run(Launch(2), [Throw(0), Timeout(0)]);
            p.starts == 1 && p.pending[1]
  {
    var p0 := Launch(2);
    var p1 := Step(p0, Throw(0));
    assert p1.count == Counting(1) && p1.pending == [true, true];
    var p2 := Step(p1, Timeout(0));
    assert p2.starts == 1 && p2.pending == [false, true];
    assert Run(p0, [Throw(0), Timeout(0)]) == Run(p1, [Timeout(0)]);
    assert Run(p1, [Timeout(0)]) == Run(p2, []);
  }
}

=== FILE: reconcile.dfy ===
/** The end of a scan in `discoveryEnd` (main.js): the encryption pass over
    the proposed instances, and the carrying forward of acknowledgements
    from the previous scan's proposals to this scan's. Instances are
    JavaScript objects; an old proposal the user acknowledged is compared
    with each new one by JSON text, after both lose a trailing `.N` from
    their `_id` and the old one loses its `comment.ack`. */
module Reconcile {
  import opened Js

  // ---------------------------------------------------------------------------
  // _id.replace(/\.\d+$/, '')

  predicate IsDigit(c: char) {
    '0' <= c <= '9'
  }

  predicate AllDigits(s: string) {
    forall j :: 0 <= j < |s| ==> IsDigit(s[j])
  }

  /** Where the run of digits that ends `s` begins. */
  function DigitsFrom(s: string): (k: nat)
    ensures k <= |s|
    ensures forall j :: k <= j < |s| ==> IsDigit(s[j])
    ensures k > 0 ==> !IsDigit(s[k - 1])
    decreases |s|
  {
    if s == [] || !IsDigit(s[|s| - 1]) then |s|
    else
      var k := DigitsFrom(s[..|s| - 1]);
      assert forall j :: k <= j < |s| - 1 ==> s[..|s| - 1][j] == s[j];
      k
  }

  /** `s` ends with a dot followed by at least one digit. */
  predicate HasIdSuffix(s: string) {
    exists j :: 0 <= j < |s| - 1 && s[j] == '.' && AllDigits(s[j + 1..])
  }

  /** When `s` has an id suffix, its digits start right after its dot. */
  lemma SuffixStart(s: string)
    ensures HasIdSuffix(s) ==> var k := DigitsFrom(s); 0 < k < |s| && s[k - 1] == '.'
  {
    if HasIdSuffix(s) {
      var k := DigitsFrom(s);
      var j :| 0 <= j < |s| - 1 && s[j] == '.' && AllDigits(s[j + 1..]);
    }
  }

  /** `id.replace(/\.\d+$/, '')`: the final dot and the digits after it are
      dropped when there are any, and nothing else changes. */
  function StripIdSuffix(s: string): (r: string)
    ensures r != s <==> HasIdSuffix(s)
    ensures r != s ==> |r| + 1 < |s| && s == r + "." + s[|r| + 1..] && AllDigits(s[|r| + 1..])
  {
    var k := DigitsFrom(s);
    SuffixStart(s);
    if 0 < k < |s| && s[k - 1] == '.' then
      assert AllDigits(s[k..]) by {
        forall j | 0 <= j < |s[k..]| ensures IsDigit(s[k..][j]) {
          assert s[k..][j] == s[k + j];
        }
      }
      assert s == s[..k - 1] + "." + s[k..];
      s[..k - 1]
    else s
  }

  /** Stripping undoes appending a dot and an instance number. */
  lemma StripAppendedSuffix(p: string, ds: string)
    requires ds != [] && AllDigits(ds)
    ensures StripIdSuffix(p + "." + ds) == p
  {
    var s := p + "." + ds;
    var k := DigitsFrom(s);
    assert s[|p|] == '.';
    assert forall j :: |p| < j < |s| ==> s[j] == ds[j - |p| - 1];
    assert s[..k - 1] == p;
  }

  lemma StripDeconzId()
    ensures StripIdSuffix("system.adapter.deconz.0") == "system.adapter.deconz"
    ensures StripIdSuffix("system.adapter.deconz") == "system.adapter.deconz"
  {
    var s := "system.adapter.deconz.0";
    assert s[21] == '.' && AllDigits(s[22..]);
    var t := "system.adapter.deconz";
    assert !IsDigit(t[|t| - 1]);
  }

  // ---------------------------------------------------------------------------
  // Instances

  /** `v._id = v._id.replace(/\.\d+$/, '')`, reached only with a string id. */
  function StripId(v: Value): Value {
    if v.Obj? && Member(v, "_id").Str? then Obj(Put(v.props, "_id", Str(StripIdSuffix(Member(v, "_id").s))))
    else v
  }

  /** `delete v.comment.ack`, reached only with an object comment. */
  function RemoveAck(v: Value): Value {
    if v.Obj? && Member(v, "comment").Obj? then
      Obj(Put(v.props, "comment", Obj(Remove(Member(v, "comment").props, "ack"))))
    else v
  }

  /** `v.comment.ack = true` */
  function SetAck(v: Value): (r: Value)
    requires v.Obj? && Member(v, "comment").Obj?
  {
    Obj(Put(v.props, "comment", Obj(Put(Member(v, "comment").props, "ack", Bool(true)))))
  }

  /** `v.comment.ack` is truthy: the user acknowledged the proposal. */
  predicate Acked(v: Value) {
    Truthy(Member(Member(v, "comment"), "ack"))
  }

  /** The text an acknowledged old proposal is compared by. */
  function OldKey(o: Value): Value {
    Canon(StripId(RemoveAck(o)))
  }

  /** The text a new proposal is compared by: its JSON copy with the id
      suffix dropped. */
  function NewKey(n: Value): Value {
    Canon(StripId(Canon(n)))
  }

  /** An object whose own keys, and its comment's, are distinct. */
  predicate Shaped(v: Value) {
    && v.Obj? && DistinctKeys(v.props)
    && (Member(v, "comment").Obj? ==> DistinctKeys(Member(v, "comment").props))
  }

  /** A new proposal as `discoveryEnd` needs it: a string `_id`. */
  predicate IsNew(n: Value) {
    Shaped(n) && Member(n, "_id").Str?
  }

  /** An old proposal as the first loop needs it: an object with a
      `comment` (reading `comment.ack` of `undefined` throws), and a string
      `_id` when acknowledged. */
  predicate IsOld(o: Value) {
    Shaped(o) && Member(o, "comment") != Undef && (Acked(o) ==> Member(o, "_id").Str?)
  }

  lemma StripIdMember(v: Value, k: string)
    requires v.Obj? && DistinctKeys(v.props) && k != "_id"
    ensures StripId(v).Obj? && DistinctKeys(StripId(v).props)
    ensures Member(StripId(v), k) == Member(v, k)
  {
  }

  /** The comment of an old key carries no `ack`. */
  lemma OldKeyHasNoAck(o: Value)
    requires IsOld(o) && Acked(o)
    ensures Member(OldKey(o), "comment").Obj?
    ensures Member(Member(OldKey(o), "comment"), "ack") == Undef
  {
    var x := RemoveAck(o);
    var stripped := Remove(Member(o, "comment").props, "ack");
    assert Member(x, "comment") == Obj(stripped);
    var y := StripId(x);
    StripIdMember(x, "comment");
    CanonMember(y, "comment");
    var c := Canon(Obj(stripped));
    assert Member(OldKey(o), "comment") == c;
    if HasKey(c.props, "ack") {
      CanonPropsKeys(Obj(stripped), 0, "ack");
    }
  }

  /** A new key carries the serialised `comment` and `comment.ack` of the
      proposal. */
  lemma NewKeyComment(n: Value)
    requires IsNew(n)
    ensures Member(NewKey(n), "comment") == Canon(Member(n, "comment"))
    ensures Member(n, "comment").Obj? ==>
              Member(Member(NewKey(n), "comment"), "ack") == Canon(Member(Member(n, "comment"), "ack"))
  {
    var z := Canon(n);
    CanonMember(n, "comment");
    CanonPropsDistinct(n, 0);
    StripIdMember(z, "comment");
    var w := StripId(z);
    CanonMember(w, "comment");
    CanonIdempotent(Member(n, "comment"));
    if Member(n, "comment").Obj? {
      CanonMember(Member(n, "comment"), "ack");
    }
  }

  /** Acknowledging a proposal keeps its shape and id, and puts `ack` in
      its key. */
  lemma SetAckShape(n: Value)
    requires IsNew(n) && Member(n, "comment").Obj?
    ensures IsNew(SetAck(n)) && Member(SetAck(n), "_id") == Member(n, "_id")
    ensures Member(SetAck(n), "comment").Obj?
    ensures Member(Member(NewKey(SetAck(n)), "comment"), "ack") == Bool(true)
  {
    var a := SetAck(n);
    assert Member(a, "comment") == Obj(Put(Member(n, "comment").props, "ack", Bool(true)));
    NewKeyComment(a);
  }

  /** A proposal that is already acknowledged never matches an old key:
      old keys have their `ack` removed. */
  lemma AckedNeverMatches(n: Value, o: Value)
    requires IsNew(n) && Member(n, "comment").Obj? && IsOld(o) && Acked(o)
    ensures NewKey(SetAck(n)) != OldKey(o)
  {
    SetAckShape(n);
    OldKeyHasNoAck(o);
  }

  /** A proposal whose key matches an old key has an object comment without
      `ack`, so acknowledging it changes it. */
  lemma MatchIsUnacked(n: Value, o: Value)
    requires IsNew(n) && IsOld(o) && Acked(o) && NewKey(n) == OldKey(o)
    ensures Member(n, "comment").Obj? && SetAck(n) != n
  {
    NewKeyComment(n);
    OldKeyHasNoAck(o);
    assert Member(n, "comment").Obj?;
    assert Member(Member(n, "comment"), "ack") == Undef;
    assert Member(Member(SetAck(n), "comment"), "ack") == Bool(true);
  }

  // ---------------------------------------------------------------------------
  // Carrying acknowledgements forward

  /** The text an old proposal leaves behind in the first loop: its own
      text when acknowledged, nothing otherwise. */
  function AckedKey(o: Value): seq<Value> {
    if Acked(o) then [OldKey(o)] else []
  }

  /** What each element leaves behind, concatenated in order. */
  function Collect<T, K>(s: seq<T>, f: T -> seq<K>): seq<K> {
    if s == [] then [] else f(s[0]) + Collect(s[1..], f)
  }

  lemma {:induction false} CollectAppend<T, K>(a: seq<T>, b: seq<T>, f: T -> seq<K>)
    ensures Collect(a + b, f) == Collect(a, f) + Collect(b, f)
  {
    if a == [] {
      assert a + b == b;
    } else {
      assert (a + b)[0] == a[0];
      assert (a + b)[1..] == a[1..] + b;
      CollectAppend(a[1..], b, f);
    }
  }

  lemma {:induction false} CollectMembers<T, K>(s: seq<T>, f: T -> seq<K>)
    ensures forall key :: key in Collect(s, f) <==> exists j :: 0 <= j < |s| && key in f(s[j])
  {
    if s != [] {
      CollectMembers(s[1..], f);
      assert forall j :: 0 < j < |s| ==> s[j] == s[1..][j - 1];
      assert forall j :: 0 <= j < |s| - 1 ==> s[1..][j] == s[j + 1];
    }
  }

  lemma {:induction false} CollectLength<T, K>(s: seq<T>, f: T -> seq<K>)
    requires forall j :: 0 <= j < |s| ==> |f(s[j])| <= 1
    ensures |Collect(s, f)| <= |s|
  {
    if s != [] {
      CollectLength(s[1..], f);
    }
  }

  /** The acknowledged old proposals, in their order, as the text they are
      compared by; the others are dropped. */
  function AckedKeys(olds: seq<Value>): seq<Value> {
    Collect(olds, AckedKey)
  }

  /** The texts kept are exactly those of the acknowledged old proposals,
      and there are no more of them than old proposals. */
  lemma AckedKeysMembers(olds: seq<Value>)
    ensures |AckedKeys(olds)| <= |olds|
    ensures forall key :: key in AckedKeys(olds) <==> exists j :: 0 <= j < |olds| && Acked(olds[j]) && OldKey(olds[j]) == key
  {
    CollectMembers(olds, AckedKey);
    CollectLength(olds, AckedKey);
  }

  /** One more old proposal adds its own text at the end when it is
      acknowledged, and nothing otherwise: one text per acknowledged old
      proposal, in their order. */
  lemma AckedKeysAppend(olds: seq<Value>, o: Value)
    ensures AckedKeys(olds + [o]) == AckedKeys(olds) + (if Acked(o) then [OldKey(o)] else [])
  {
    CollectAppend(olds, [o], AckedKey);
    CollectOne([o], AckedKey);
  }

  lemma CollectOne<T, K>(s: seq<T>, f: T -> seq<K>)
    requires |s| == 1
    ensures Collect(s, f) == f(s[0])
  {
    assert Collect(s[1..], f) == [];
    assert f(s[0]) + [] == f(s[0]);
  }

  /** The first loop as written: walking the old proposals from the last to
      the first, an acknowledged one is replaced by its text (`ack`
      deleted, id suffix dropped, serialised) and any other one is spliced
      out. What remains is one text per acknowledged proposal, in order. */
  method PruneOlds(olds: seq<Value>) returns (keys: seq<Value>)
    requires forall j :: 0 <= j < |olds| ==> IsOld(olds[j])
    ensures keys == AckedKeys(olds)
  {
    keys := ReplaceEach(olds, AckedKey);
  }

  /** Walks `s` from the last element to the first, replacing each element
      `x` in place by `f(x)`. */
  method ReplaceEach<T>(s: seq<T>, f: T -> seq<T>) returns (r: seq<T>)
    ensures r == Collect(s, f)
  {
    r := s;
    var j := |s|;
    while j > 0
      invariant 0 <= j <= |s|
      invariant r == s[..j] + Collect(s[j..], f)
    {
      j := j - 1;
      ReplaceStep(s, j, f);
      r := r[..j] + f(r[j]) + r[j + 1..];
    }
    assert s[0..] == s && s[..0] == [];
  }

  lemma ReplaceStep<T>(s: seq<T>, j: nat, f: T -> seq<T>)
    requires j < |s|
    ensures s[..j + 1] == s[..j] + [s[j]]
    ensures Collect(s[j..], f) == f(s[j]) + Collect(s[j + 1..], f)
  {
    assert s[j..][0] == s[j];
    assert s[j..][1..] == s[j + 1..];
  }

  /** Nothing is carried forward exactly when no old proposal was
      acknowledged. */
  lemma NoAckedKeys(olds: seq<Value>)
    ensures AckedKeys(olds) == [] <==> forall j :: 0 <= j < |olds| ==> !Acked(olds[j])
  {
    var keys := AckedKeys(olds);
    AckedKeysMembers(olds);
    if keys != [] {
      assert keys[0] in keys;
    } else {
      forall j | 0 <= j < |olds| ensures !Acked(olds[j]) {
        assert OldKey(olds[j]) !in keys;
      }
    }
  }

  // The bookkeeping of the second loop, over any list `base` whose
  // elements may each be replaced by their counterpart in `marked`, and
  // whose texts are `texts`.

  /** How many entries before entry `n` have the same text. */
  ghost function Rank<K>(texts: seq<K>, n: nat): nat
    requires n < |texts|
  {
    multiset(texts[..n])[texts[n]]
  }

  /** Exactly the first entries of each text are replaced, as many as
      `keys` holds that text. */
  ghost predicate MarksFirst<T, K>(base: seq<T>, marked: seq<T>, texts: seq<K>, keys: seq<K>, r: seq<T>) {
    && |r| == |base| == |marked| == |texts|
    && forall n :: 0 <= n < |r| ==>
         && (r[n] == base[n] || r[n] == marked[n])
         && (r[n] != base[n] <==> Rank(texts, n) < multiset(keys)[texts[n]])
  }

  /** A later entry with the same text has a higher rank. */
  lemma RankGrows<K>(texts: seq<K>, p: nat, q: nat)
    requires p < q < |texts| && texts[p] == texts[q]
    ensures Rank(texts, p) < Rank(texts, q)
  {
    assert texts[..q] == texts[..p] + [texts[p]] + texts[p + 1..q];
  }

  /** An entry of rank `b > 0` follows one of rank `b - 1` with its text. */
  lemma {:induction false} RankPrevious<K>(texts: seq<K>, n: nat, k: K) returns (m: nat)
    requires n <= |texts| && multiset(texts[..n])[k] > 0
    ensures m < n && texts[m] == k && multiset(texts[..m])[k] == multiset(texts[..n])[k] - 1
    decreases n
  {
    assert texts[..n] == texts[..n - 1] + [texts[n - 1]];
    if texts[n - 1] == k {
      m := n - 1;
    } else {
      m := RankPrevious(texts, n - 1, k);
    }
  }

  /** Before the second loop nothing is replaced. */
  lemma MarksNothing<T, K>(base: seq<T>, marked: seq<T>, texts: seq<K>)
    requires |base| == |marked| == |texts|
    ensures MarksFirst(base, marked, texts, [], base)
  {
  }

  /** One round for the text `k`: the first entry with that text not
      replaced yet is replaced. */
  lemma MarkFirst<T, K>(base: seq<T>, marked: seq<T>, texts: seq<K>, keys: seq<K>, k: K, r: seq<T>, n: nat)
    requires MarksFirst(base, marked, texts, keys, r)
    requires n < |r| && r[n] == base[n] && marked[n] != base[n] && texts[n] == k
    requires forall m :: 0 <= m < n && texts[m] == k ==> r[m] != base[m]
    ensures MarksFirst(base, marked, texts, keys + [k], r[n := marked[n]])
  {
    var c := multiset(keys)[k];
    assert multiset(keys + [k]) == multiset(keys) + multiset{k};
    assert Rank(texts, n) == c by {
      if Rank(texts, n) > 0 {
        var m := RankPrevious(texts, n, k);
        assert r[m] != base[m];
      }
    }
    var r' := r[n := marked[n]];
    forall p | 0 <= p < |r'|
      ensures (r'[p] != base[p] <==> Rank(texts, p) < multiset(keys + [k])[texts[p]])
    {
      if p != n && texts[p] == k {
        if p < n {
          RankGrows(texts, p, n);
        } else {
          RankGrows(texts, n, p);
        }
      }
    }
  }

  /** One round for the text `k` when every entry with that text is
      replaced already. */
  lemma MarkNone<T, K>(base: seq<T>, marked: seq<T>, texts: seq<K>, keys: seq<K>, k: K, r: seq<T>)
    requires MarksFirst(base, marked, texts, keys, r)
    requires forall m :: 0 <= m < |r| && texts[m] == k ==> r[m] != base[m]
    ensures MarksFirst(base, marked, texts, keys + [k], r)
  {
    assert multiset(keys + [k]) == multiset(keys) + multiset{k};
    forall p | 0 <= p < |r| && texts[p] == k
      ensures Rank(texts, p) < multiset(keys)[k] + 1
    {
      assert r[p] != base[p];
    }
  }

  // ---------------------------------------------------------------------------
  // The same, for proposals

  /** The counterpart of each new proposal: itself acknowledged, where it
      has an object comment. */
  function AckedForms(news: seq<Value>): (m: seq<Value>)
    ensures |m| == |news|
    ensures forall n :: 0 <= n < |news| ==> m[n] == if Member(news[n], "comment").Obj? then SetAck(news[n]) else news[n]
  {
    seq(|news|, n requires 0 <= n < |news| => if Member(news[n], "comment").Obj? then SetAck(news[n]) else news[n])
  }

  /** The text of each new proposal. */
  function Texts(news: seq<Value>): (t: seq<Value>)
    ensures |t| == |news|
    ensures forall n :: 0 <= n < |news| ==> t[n] == NewKey(news[n])
  {
    seq(|news|, n requires 0 <= n < |news| => NewKey(news[n]))
  }

  /** A proposal as marked so far matches an acknowledged old text only if
      it is not marked yet; it then has an object comment, and marking
      changes it. */
  lemma MatchFound(news: seq<Value>, r: seq<Value>, o: Value, n: nat)
    requires forall m :: 0 <= m < |news| ==> IsNew(news[m])
    requires IsOld(o) && Acked(o) && |r| == |news| && n < |r|
    requires r[n] == news[n] || r[n] == AckedForms(news)[n]
    requires NewKey(r[n]) == OldKey(o)
    ensures r[n] == news[n] && Member(news[n], "comment").Obj? && SetAck(news[n]) != news[n]
  {
    if r[n] != news[n] {
      AckedNeverMatches(news[n], o);
      assert false;
    }
    MatchIsUnacked(news[n], o);
  }

  /** The inner loop: the first proposal, as marked so far, whose text is `key`. */
  method FirstMatch(r: seq<Value>, key: Value) returns (n: nat)
    ensures n <= |r|
    ensures n < |r| ==> NewKey(r[n]) == key
    ensures forall m :: 0 <= m < n ==> NewKey(r[m]) != key
  {
    var texts := seq(|r|, m requires 0 <= m < |r| => NewKey(r[m]));
    n := FirstIndex(texts, key);
    forall m | 0 <= m < n ensures NewKey(r[m]) != key {
      assert texts[m] != key;
    }
  }

  /** The first position holding `key`, or the length when there is none. */
  method FirstIndex<K(==)>(s: seq<K>, key: K) returns (n: nat)
    ensures n <= |s|
    ensures n < |s| ==> s[n] == key
    ensures forall m :: 0 <= m < n ==> s[m] != key
  {
    n := 0;
    while n < |s| && s[n] != key
      invariant n <= |s|
      invariant forall m :: 0 <= m < n ==> s[m] != key
    {
      n := n + 1;
    }
  }

  /** Where an acknowledged text comes from. */
  lemma KeyOrigin(olds: seq<Value>, i: nat) returns (j: nat)
    requires i < |AckedKeys(olds)|
    ensures j < |olds| && Acked(olds[j]) && OldKey(olds[j]) == AckedKeys(olds)[i]
  {
    AckedKeysMembers(olds);
    assert AckedKeys(olds)[i] in AckedKeys(olds);
    j :| 0 <= j < |olds| && Acked(olds[j]) && OldKey(olds[j]) == AckedKeys(olds)[i];
  }

  /** One round of the second loop, for the acknowledged old proposal
      `o`: the first proposal whose text equals its text is acknowledged. */
  method Round(news: seq<Value>, keys: seq<Value>, key: Value, ghost o: Value, r: seq<Value>) returns (r': seq<Value>)
    requires forall n :: 0 <= n < |news| ==> IsNew(news[n])
    requires IsOld(o) && Acked(o) && key == OldKey(o)
    requires MarksFirst(news, AckedForms(news), Texts(news), keys, r)
    ensures MarksFirst(news, AckedForms(news), Texts(news), keys + [key], r')
  {
    var n := FirstMatch(r, key);
    if n < |r| {
      MatchFound(news, r, o, n);
      forall m | 0 <= m < n && Texts(news)[m] == key ensures r[m] != news[m] {
      }
      MarkFirst(news, AckedForms(news), Texts(news), keys, key, r, n);
      r' := r[n := SetAck(r[n])];
    } else {
      forall m | 0 <= m < |r| && Texts(news)[m] == key ensures r[m] != news[m] {
      }
      MarkNone(news, AckedForms(news), Texts(news), keys, key, r);
      r' := r;
    }
  }

  /** The second loop: for each acknowledged old proposal in turn, the
      first new proposal whose text equals its text, among those not
      acknowledged yet, gets `comment.ack = true`. So for each text, as
      many of the first proposals with that text are acknowledged as there
      are acknowledged old proposals with it; nothing else changes. */
  method CarryAcks(news: seq<Value>, olds: seq<Value>) returns (r: seq<Value>)
    requires forall j :: 0 <= j < |olds| ==> IsOld(olds[j])
    requires AckedKeys(olds) != [] ==> forall n :: 0 <= n < |news| ==> IsNew(news[n])
    ensures |r| == |news|
    ensures forall n :: 0 <= n < |r| ==>
              r[n] == news[n] || (Member(news[n], "comment").Obj? && r[n] == SetAck(news[n]))
    ensures forall n :: 0 <= n < |r| ==> Member(r[n], "_id") == Member(news[n], "_id")
    // the proposal is acknowledged exactly when fewer earlier proposals
    // share its text than there are acknowledged old proposals with it
    ensures forall n :: 0 <= n < |r| ==>
              (r[n] != news[n] <==> Rank(Texts(news), n) < multiset(AckedKeys(olds))[NewKey(news[n])])
  {
    var keys := PruneOlds(olds);
    r := news;
    MarksNothing(news, AckedForms(news), Texts(news));
    var i := 0;
    while i < |keys|
      invariant i <= |keys|
      invariant MarksFirst(news, AckedForms(news), Texts(news), keys[..i], r)
    {
      ghost var j := KeyOrigin(olds, i);
      TakeOneMore(keys, i);
      r := Round(news, keys[..i], keys[i], olds[j], r);
      i := i + 1;
    }
    TakeOneMore(keys, i);
    CarryMeaning(news, keys, r);
  }

  lemma TakeOneMore<T>(s: seq<T>, i: nat)
    requires i <= |s|
    ensures i < |s| ==> s[..i + 1] == s[..i] + [s[i]]
    ensures i == |s| ==> s[..i] == s
  {
  }

  /** What "the first proposals of each text are marked" says about each
      proposal. */
  lemma CarryMeaning(news: seq<Value>, keys: seq<Value>, r: seq<Value>)
    requires keys != [] ==> forall n :: 0 <= n < |news| ==> IsNew(news[n])
    requires MarksFirst(news, AckedForms(news), Texts(news), keys, r)
    ensures |r| == |news|
    ensures forall n :: 0 <= n < |r| ==>
              r[n] == news[n] || (Member(news[n], "comment").Obj? && r[n] == SetAck(news[n]))
    ensures forall n :: 0 <= n < |r| ==> Member(r[n], "_id") == Member(news[n], "_id")
    ensures forall n :: 0 <= n < |r| ==>
              (r[n] != news[n] <==> Rank(Texts(news), n) < multiset(keys)[NewKey(news[n])])
  {
    forall n | 0 <= n < |r|
      ensures r[n] == news[n] || (Member(news[n], "comment").Obj? && r[n] == SetAck(news[n]))
      ensures Member(r[n], "_id") == Member(news[n], "_id")
      ensures r[n] != news[n] <==> Rank(Texts(news), n) < multiset(keys)[NewKey(news[n])]
    {
      assert Texts(news)[n] == NewKey(news[n]);
      if r[n] != news[n] {
        assert keys != [];
        assert r[n] == AckedForms(news)[n];
        if Member(news[n], "comment").Obj? {
          SetAckShape(news[n]);
        }
      }
    }
  }

  /** Old proposals nobody acknowledged carry nothing forward, and a
      proposal whose text no acknowledged old proposal has stays as it is. */
  lemma CarryNothing(news: seq<Value>, olds: seq<Value>, r: seq<Value>)
    requires |r| == |news|
    requires forall n :: 0 <= n < |r| ==>
               (r[n] != news[n] <==> Rank(Texts(news), n) < multiset(AckedKeys(olds))[NewKey(news[n])])
    ensures (forall j :: 0 <= j < |olds| ==> !Acked(olds[j])) ==> r == news
    ensures forall n :: 0 <= n < |r| && NewKey(news[n]) !in AckedKeys(olds) ==> r[n] == news[n]
  {
    NoAckedKeys(olds);
    AckedKeysMembers(olds);
  }

  /** The first proposal with an acknowledged text is always acknowledged,
      and of two proposals with the same text, the later one is
      acknowledged only if the earlier one is. */
  lemma CarryFirst(news: seq<Value>, olds: seq<Value>, r: seq<Value>)
    requires |r| == |news|
    requires forall n :: 0 <= n < |r| ==>
               (r[n] != news[n] <==> Rank(Texts(news), n) < multiset(AckedKeys(olds))[NewKey(news[n])])
    ensures forall n :: (0 <= n < |r| && NewKey(news[n]) in AckedKeys(olds)
                         && forall m :: 0 <= m < n ==> NewKey(news[m]) != NewKey(news[n])) ==> r[n] != news[n]
    ensures forall p, q :: 0 <= p < q < |r| && NewKey(news[p]) == NewKey(news[q]) && r[q] != news[q] ==> r[p] != news[p]
  {
    var texts := Texts(news);
    forall n | 0 <= n < |r| && NewKey(news[n]) in AckedKeys(olds)
      && (forall m :: 0 <= m < n ==> NewKey(news[m]) != NewKey(news[n]))
      ensures r[n] != news[n]
    {
      if Rank(texts, n) > 0 {
        var m := RankPrevious(texts, n, texts[n]);
        assert NewKey(news[m]) == NewKey(news[n]);
      }
    }
    forall p, q | 0 <= p < q < |r| && NewKey(news[p]) == NewKey(news[q]) && r[q] != news[q]
      ensures r[p] != news[p]
    {
      RankGrows(texts, p, q);
    }
  }
}

=== FILE: registry.dfy ===
/** The device registry `g_devices` and `Browse.addDevice` with its inner
    recursive `_merge` (main.js). Devices are keyed by the reporting
    method's type and then by `_addr`. A first observation is stored as it
    came, tagged; a repeat observation is merged into the stored record,
    and for the fields `name`, `data` and `LOCATION` a disagreement is kept
    in a history list under `<field>x`. */
module Registry {
  import opened Js

  /** A stored device: its own properties, and the `_upnp` announcement
      list, which is kept beside the properties and appended to rather than
      merged. */
  datatype Device = Device(fields: Props, upnp: seq<Value>)

  /** An `addDevice` argument: its properties other than `_upnp`, and the
      `_upnp` payload (`Undef` when it has none). */
  datatype Observation = Observation(fields: Props, upnp: Value)

  /** `g_devices`: type key, then address key, in insertion order. */
  type Devices = seq<(string, seq<(string, Device)>)>

  /** `specialEntryNames` */
  const SpecialNames: seq<string> := ["name", "data", "LOCATION"]

  /** The property that keeps the distinct values a special field has had. */
  function HistoryKey(name: string): (hk: string)
    ensures hk != name
  {
    assert |name + "x"| == |name| + 1;
    name + "x"
  }

  // ---------------------------------------------------------------------------
  // _merge

  /** The history a conflict on `name` extends: the stored list, or a fresh
      one seeded with the current value when `<name>x` is undefined (or,
      outside what the source handles, holds anything but a list). */
  function HistoryOf(dest: Props, name: string): seq<Value> {
    match Get(dest, HistoryKey(name))
    case List(xs) => xs
    case _ => [Get(dest, name)]
  }

  /** A special field whose truthy value differs from a defined incoming one. */
  predicate Conflicts(dest: Props, name: string, v: Value) {
    name in SpecialNames && Truthy(Get(dest, name)) && v != Undef && Get(dest, name) != v
  }

  predicate NoDuplicates(xs: seq<Value>) {
    forall i, j :: 0 <= i < j < |xs| ==> xs[i] != xs[j]
  }

  /** The history after a conflict with the incoming value `v`. */
  function GrownHistory(dest: Props, name: string, v: Value): seq<Value> {
    var history := HistoryOf(dest, name);
    history + (if Truthy(v) && v !in history then [v] else [])
  }

  /** A conflict on a special field: the newest value wins and the history
      gains it, unless it is falsy or already listed. */
  function RecordConflict(dest: Props, name: string, v: Value): (r: Props)
    requires Conflicts(dest, name, v)
    ensures Get(r, name) == v
    ensures Get(r, HistoryKey(name)) == List(GrownHistory(dest, name, v))
    ensures forall k :: k != name && k != HistoryKey(name) ==> Find(r, k) == Find(dest, k)
  {
    var hk := HistoryKey(name);
    var seeded := if Get(dest, hk).List? then dest else Put(dest, hk, List([Get(dest, name)]));
    assert Get(seeded, hk) == List(HistoryOf(dest, name));
    var grown := Put(seeded, hk, List(GrownHistory(dest, name, v)));
    Put(grown, name, v)
  }

  /** A history never holds the same value twice, and a seeded one starts
      with the value that was replaced. */
  lemma GrownHistoryShape(dest: Props, name: string, v: Value)
    requires Conflicts(dest, name, v)
    ensures NoDuplicates(HistoryOf(dest, name)) ==> NoDuplicates(GrownHistory(dest, name, v))
    ensures !Get(dest, HistoryKey(name)).List? ==> GrownHistory(dest, name, v)[0] == Get(dest, name)
    ensures Truthy(v) ==> v in GrownHistory(dest, name, v)
    ensures HistoryOf(dest, name) <= GrownHistory(dest, name, v)
  {
  }

  /** The scalar branch of `_merge` for one property `name` of the incoming
      object, whose value is `v`. */
  function MergeScalar(dest: Props, name: string, v: Value): (r: Props)
    ensures Conflicts(dest, name, v) ==> r == RecordConflict(dest, name, v)
    // agreement on a special field leaves the record untouched
    ensures name in SpecialNames && Truthy(Get(dest, name)) && v == Get(dest, name) ==> r == dest
    // every other scalar is simply overwritten
    ensures !(name in SpecialNames && Truthy(Get(dest, name)) && v != Undef) ==> r == Put(dest, name, v)
    // no property but `name` and its history changes
    ensures forall k :: k != name && k != HistoryKey(name) ==> Find(r, k) == Find(dest, k)
  {
    if name in SpecialNames && Truthy(Get(dest, name)) && v != Undef then
      if Get(dest, name) != v then RecordConflict(dest, name, v) else dest
    else
      Put(dest, name, v)
  }

  /** The object `_merge` recurses into: the stored object, or a fresh `{}`
      when the stored value is not an object. */
  function SubProps(v: Value): Props {
    if v.Obj? then v.props else []
  }

  /** The properties of `from` at and after `i` neither are nor shadow `k`. */
  predicate Untouched(from: Value, i: nat, k: string)
    requires from.Obj?
  {
    forall m :: i <= m < |from.props| ==> from.props[m].0 != k && HistoryKey(from.props[m].0) != k
  }

  /** `_merge(dest, from)` over the properties of `from` from index `i` on,
      in their order. */
  function MergeProps(dest: Props, from: Value, i: nat): (r: Props)
    requires from.Obj? && i <= |from.props|
    ensures forall k :: Untouched(from, i, k) ==> Find(r, k) == Find(dest, k)
    decreases from, |from.props| - i, 1
  {
    if i == |from.props| then dest
    else MergeProps(MergeStep(dest, from, i), from, i + 1)
  }

  /** One property of `from`: `__debug` is skipped, an object is merged
      into the stored object (or into `{}`), anything else goes through the
      scalar rule. */
  function MergeStep(dest: Props, from: Value, i: nat): (r: Props)
    requires from.Obj? && i < |from.props|
    ensures forall k :: k != from.props[i].0 && k != HistoryKey(from.props[i].0) ==> Find(r, k) == Find(dest, k)
    decreases from, |from.props| - i, 0
  {
    var name := from.props[i].0;
    var v := from.props[i].1;
    if name == "__debug" then dest
    else if v.Obj? then Put(dest, name, Obj(MergeProps(SubProps(Get(dest, name)), v, 0)))
    else if v.List? then Put(dest, name, v)
    else MergeScalar(dest, name, v)
  }

  /** `dest` already holds every property of `from` from index `i` on, with
      the same (well-formed) value. */
  predicate Knows(dest: Props, from: Props, i: nat) {
    forall m :: i <= m < |from| ==> Find(dest, from[m].0) == Some(from[m].1) && WellFormed(from[m].1)
  }

  /** Merging an object into a record that already holds each of its
      properties with the same value changes nothing: re-reporting what is
      known is harmless. */
  lemma {:induction false} MergeKnownIsNoOp(dest: Props, from: Value, i: nat)
    requires from.Obj? && i <= |from.props|
    requires Knows(dest, from.props, i)
    ensures MergeProps(dest, from, i) == dest
    decreases from, |from.props| - i
  {
    if i < |from.props| {
      var name := from.props[i].0;
      var v := from.props[i].1;
      assert Get(dest, name) == v;
      if name != "__debug" {
        if v.Obj? {
          assert WellFormed(v);
          forall m | 0 <= m < |v.props| ensures Find(v.props, v.props[m].0) == Some(v.props[m].1) {
            FindEntry(v.props, m);
          }
          assert Knows(v.props, v.props, 0);
          MergeKnownIsNoOp(v.props, v, 0);
          PutExisting(dest, name, v);
        } else {
          PutExisting(dest, name, v);
        }
      }
      assert MergeStep(dest, from, i) == dest;
      MergeKnownIsNoOp(dest, from, i + 1);
    }
  }

  // ---------------------------------------------------------------------------
  // What _merge leaves under each property

  /** The value property `name` holds once `_merge` has met the incoming
      value `v` there: an object is merged into the stored object (or into
      a fresh `{}`), and every other value is copied, `undefined` included.
      A special field that agrees or conflicts ends up with `v` as well. */
  function MergedValue(dest: Props, name: string, v: Value): Value {
    if v.Obj? then Obj(MergeProps(SubProps(Get(dest, name)), v, 0)) else v
  }

  /** What `<name>x` holds once `_merge` has met the scalar `v` under
      `name`: the grown history after a conflict, what it held before
      otherwise. */
  function HistoryAfter(dest: Props, name: string, v: Value): Option<Value> {
    if !v.Obj? && !v.List? && Conflicts(dest, name, v) then Some(List(GrownHistory(dest, name, v)))
    else Find(dest, HistoryKey(name))
  }

  /** No property of `from` has `k` as its history property. */
  predicate Unshadowed(from: Props, k: string) {
    forall j :: 0 <= j < |from| ==> HistoryKey(from[j].0) != k
  }

  lemma HistoryKeyInjective(a: string, b: string)
    ensures HistoryKey(a) == HistoryKey(b) ==> a == b
  {
    if HistoryKey(a) == HistoryKey(b) {
      assert |a| == |b|;
      assert a == HistoryKey(a)[..|a|];
    }
  }

  /** A property whose name does not end in `x` is nobody's history. */
  lemma HistoryKeyEnds(a: string, k: string)
    requires k != [] && k[|k| - 1] != 'x'
    ensures HistoryKey(a) != k
  {
    assert HistoryKey(a)[|HistoryKey(a)| - 1] == 'x';
  }

  /** One step of `_merge` puts the merged value under its property and
      the grown history under its history property. */
  lemma StepMeaning(dest: Props, from: Value, m: nat)
    requires from.Obj? && m < |from.props| && from.props[m].0 != "__debug"
    ensures Find(MergeStep(dest, from, m), from.props[m].0) == Some(MergedValue(dest, from.props[m].0, from.props[m].1))
    ensures Find(MergeStep(dest, from, m), HistoryKey(from.props[m].0)) == HistoryAfter(dest, from.props[m].0, from.props[m].1)
  {
    var name := from.props[m].0;
    var v := from.props[m].1;
    var hk := HistoryKey(name);
    if !v.Obj? && !v.List? {
      if Conflicts(dest, name, v) {
        assert Get(RecordConflict(dest, name, v), name) == v;
        assert Get(RecordConflict(dest, name, v), hk) == List(GrownHistory(dest, name, v));
      } else if name in SpecialNames && Truthy(Get(dest, name)) && v != Undef {
        assert Get(dest, name) == v;
      }
    }
  }

  /** No step from index `i` up to `m` writes `k` or its history. */
  predicate UntouchedUpTo(from: Value, i: nat, m: nat, k: string)
    requires from.Obj? && m <= |from.props|
  {
    forall j :: i <= j < m ==> from.props[j].0 != k && HistoryKey(from.props[j].0) != k
  }

  /** The steps of `_merge` for the properties of `from` from index `i` up
      to, not including, index `m`. */
  function StepsUpTo(dest: Props, from: Value, i: nat, m: nat): (r: Props)
    requires from.Obj? && i <= m <= |from.props|
    ensures forall k :: UntouchedUpTo(from, i, m, k) ==> Find(r, k) == Find(dest, k)
    decreases m - i
  {
    if i == m then dest else StepsUpTo(MergeStep(dest, from, i), from, i + 1, m)
  }

  /** The walk from `i` is the steps up to `m` followed by the walk from `m`. */
  lemma {:induction false} WalkSplits(dest: Props, from: Value, i: nat, m: nat)
    requires from.Obj? && i <= m <= |from.props|
    ensures MergeProps(dest, from, i) == MergeProps(StepsUpTo(dest, from, i, m), from, m)
    decreases m - i
  {
    if i < m {
      var dest1 := MergeStep(dest, from, i);
      WalkSplits(dest1, from, i + 1, m);
      UnfoldWalk(dest, from, i, m);
    }
  }

  lemma UnfoldWalk(dest: Props, from: Value, i: nat, m: nat)
    requires from.Obj? && i < m <= |from.props|
    ensures MergeProps(dest, from, i) == MergeProps(MergeStep(dest, from, i), from, i + 1)
    ensures StepsUpTo(dest, from, i, m) == StepsUpTo(MergeStep(dest, from, i), from, i + 1, m)
  {
  }

  /** What one step leaves under its property and history depends only on
      what the record held there. */
  lemma SameInputs(d1: Props, d2: Props, name: string, v: Value)
    requires Find(d1, name) == Find(d2, name) && Find(d1, HistoryKey(name)) == Find(d2, HistoryKey(name))
    ensures MergedValue(d1, name, v) == MergedValue(d2, name, v)
    ensures HistoryAfter(d1, name, v) == HistoryAfter(d2, name, v)
  {
    assert Get(d1, name) == Get(d2, name);
    assert Get(d1, HistoryKey(name)) == Get(d2, HistoryKey(name));
  }

  /** Walking the properties of `from` from index `i` on: a property of
      `from` that no other property shadows ends up with its merged value,
      and its history property with the history that property's step
      leaves, as if no other step had run. */
  lemma MergeWalk(dest: Props, from: Value, i: nat, m: nat)
    requires from.Obj? && DistinctKeys(from.props) && i <= m < |from.props|
    requires from.props[m].0 != "__debug" && Unshadowed(from.props, from.props[m].0)
    ensures Find(MergeProps(dest, from, i), from.props[m].0) == Some(MergedValue(dest, from.props[m].0, from.props[m].1))
    ensures !HasKey(from.props, HistoryKey(from.props[m].0)) ==>
              Find(MergeProps(dest, from, i), HistoryKey(from.props[m].0)) == HistoryAfter(dest, from.props[m].0, from.props[m].1)
  {
    var name := from.props[m].0;
    var v := from.props[m].1;
    var hk := HistoryKey(name);
    var before := StepsUpTo(dest, from, i, m);
    WalkSplits(dest, from, i, m);
    assert UntouchedUpTo(from, i, m, name);
    if !HasKey(from.props, hk) {
      forall j | i <= j < m ensures from.props[j].0 != hk && HistoryKey(from.props[j].0) != hk {
        HistoryKeyInjective(from.props[j].0, name);
      }
      assert UntouchedUpTo(from, i, m, hk);
      SameInputs(before, dest, name, v);
    } else {
      assert Get(before, name) == Get(dest, name);
    }
    OwnStep(before, from, m);
  }

  /** Property `m`'s own step, and nothing after it touches its result. */
  lemma OwnStep(dest: Props, from: Value, m: nat)
    requires from.Obj? && DistinctKeys(from.props) && m < |from.props|
    requires from.props[m].0 != "__debug" && Unshadowed(from.props, from.props[m].0)
    ensures Find(MergeProps(MergeStep(dest, from, m), from, m + 1), from.props[m].0) == Some(MergedValue(dest, from.props[m].0, from.props[m].1))
    ensures !HasKey(from.props, HistoryKey(from.props[m].0)) ==>
              Find(MergeProps(MergeStep(dest, from, m), from, m + 1), HistoryKey(from.props[m].0)) == HistoryAfter(dest, from.props[m].0, from.props[m].1)
  {
    var name := from.props[m].0;
    var hk := HistoryKey(name);
    StepMeaning(dest, from, m);
    assert Untouched(from, m + 1, name);
    if !HasKey(from.props, hk) {
      forall j | m + 1 <= j < |from.props| ensures from.props[j].0 != hk && HistoryKey(from.props[j].0) != hk {
        HistoryKeyInjective(from.props[j].0, name);
      }
      assert Untouched(from, m + 1, hk);
    }
  }

  // ---------------------------------------------------------------------------
  // addDevice

  /** The key `g_devices[type]` uses: `String(type)`. */
  function TypeKey(mtype: Option<string>): string {
    match mtype
    case Some(t) => t
    case None => "undefined"
  }

  /** The method's `type` as a JavaScript value. */
  function TypeValue(mtype: Option<string>): Value {
    match mtype
    case Some(t) => Str(t)
    case None => Undef
  }

  /** `type || 'ip'` */
  function TypeTag(mtype: Option<string>): string {
    match mtype
    case Some(t) => if t == "" then "ip" else t
    case None => "ip"
  }

  function Lookup(devices: Devices, tk: string, ak: string): Option<Device> {
    match Find(devices, tk)
    case Some(byAddr) => Find(byAddr, ak)
    case None => None
  }

  /** Type keys are distinct, and so are the addresses under each type, as
      with JavaScript objects. */
  ghost predicate Keyed(devices: Devices) {
    && DistinctKeys(devices)
    && forall t :: Find(devices, t).Some? ==> DistinctKeys(Find(devices, t).value)
  }

  /** `g_devices[tk] = g_devices[tk] || {}; g_devices[tk][ak] = d` */
  function Store(devices: Devices, tk: string, ak: string, d: Device): (r: Devices)
    ensures Lookup(r, tk, ak) == Some(d)
    ensures forall t, a :: (t, a) != (tk, ak) ==> Lookup(r, t, a) == Lookup(devices, t, a)
    ensures Keyed(devices) ==> Keyed(r)
  {
    var byAddr := match Find(devices, tk) case Some(m) => m case None => [];
    StoreLookups(devices, tk, ak, d, byAddr);
    PutKeyed(devices, tk, Put(byAddr, ak, d));
    Put(devices, tk, Put(byAddr, ak, d))
  }

  lemma StoreLookups(devices: Devices, tk: string, ak: string, d: Device, byAddr: seq<(string, Device)>)
    requires byAddr == match Find(devices, tk) case Some(m) => m case None => []
    ensures Lookup(Put(devices, tk, Put(byAddr, ak, d)), tk, ak) == Some(d)
    ensures forall t, a :: (t, a) != (tk, ak) ==> Lookup(Put(devices, tk, Put(byAddr, ak, d)), t, a) == Lookup(devices, t, a)
  {
    forall t, a | (t, a) != (tk, ak)
      ensures Lookup(Put(devices, tk, Put(byAddr, ak, d)), t, a) == Lookup(devices, t, a)
    {
      StoreLookupAt(devices, tk, ak, d, byAddr, t, a);
    }
  }

  lemma StoreLookupAt(devices: Devices, tk: string, ak: string, d: Device, byAddr: seq<(string, Device)>, t: string, a: string)
    requires byAddr == match Find(devices, tk) case Some(m) => m case None => []
    requires (t, a) != (tk, ak)
    ensures Lookup(Put(devices, tk, Put(byAddr, ak, d)), t, a) == Lookup(devices, t, a)
  {
    var r := Put(devices, tk, Put(byAddr, ak, d));
    if t != tk {
      assert Find(r, t) == Find(devices, t);
    } else {
      assert Find(r, t) == Some(Put(byAddr, ak, d));
      assert Find(Put(byAddr, ak, d), a) == Find(byAddr, a);
    }
  }

  /** Putting a distinct-keyed address table under a type keeps the
      registry's keys distinct. */
  lemma PutKeyed(devices: Devices, tk: string, byAddr: seq<(string, Device)>)
    requires Keyed(devices) ==> DistinctKeys(byAddr)
    ensures Keyed(devices) ==> Keyed(Put(devices, tk, byAddr))
  {
    if Keyed(devices) {
      var r := Put(devices, tk, byAddr);
      forall t | Find(r, t).Some? ensures DistinctKeys(Find(r, t).value) {
        if t != tk {
          assert Find(r, t) == Find(devices, t);
        }
      }
    }
  }

  /** Only the UPnP method reports an `_upnp` payload. */
  predicate UpnpFromUpnp(obs: Observation, mtype: Option<string>) {
    obs.upnp != Undef ==> mtype == Some("upnp")
  }

  /** The record a first observation becomes: the observation itself with
      `_source` and `_type` set and `_new` gone; for the UPnP method,
      `_upnp` wrapped in a list, even when it is `undefined`. */
  function FirstRecord(obs: Observation, source: string, mtype: Option<string>): (d: Device)
    requires UpnpFromUpnp(obs, mtype)
    ensures Get(d.fields, "_source") == Str(source)
    ensures Get(d.fields, "_type") == Str(TypeTag(mtype))
    ensures !HasKey(d.fields, "_new")
    ensures forall k :: k != "_source" && k != "_type" && k != "_new" ==> Find(d.fields, k) == Find(obs.fields, k)
    ensures mtype == Some("upnp") ==> d.upnp == [obs.upnp]
    ensures mtype != Some("upnp") ==> d.upnp == []
  {
    var sourced := Put(obs.fields, "_source", Str(source));
    var tagged := Put(sourced, "_type", Str(TypeTag(mtype)));
    // `_new` is set to true and deleted again before `addDevice` returns
    var fields := Remove(tagged, "_new");
    assert Find(fields, "_source") == Find(tagged, "_source") == Find(sourced, "_source");
    assert Find(fields, "_type") == Find(tagged, "_type");
    var upnp := if mtype == Some("upnp") then [obs.upnp] else [];
    Device(fields, upnp)
  }

  /** A repeat observation merged into the stored record `prior`. */
  function Extend(prior: Device, obs: Observation): (d: Device)
    ensures d.upnp == prior.upnp + (if obs.upnp == Undef then [] else [obs.upnp])
    ensures forall k :: k != "_name" && Untouched(Obj(Remove(obs.fields, "_new")), 0, k) ==>
              Find(d.fields, k) == Find(prior.fields, k)
  {
    var upnp := if obs.upnp != Undef then prior.upnp + [obs.upnp] else prior.upnp;
    var merged := MergeProps(prior.fields, Obj(Remove(obs.fields, "_new")), 0);
    // restores a `_name` the merge left falsy; after the merge above it
    // never applies, since a truthy incoming `_name` has just been copied
    var named :=
      if !Truthy(Get(merged, "_name")) && Truthy(Get(obs.fields, "_name"))
      then Put(merged, "_name", Get(obs.fields, "_name"))
      else merged;
    Device(named, upnp)
  }

  /** The `_name` repair after the merge never applies: a truthy incoming
      `_name` has just been copied (or merged, when it is an object), so
      the record's properties are exactly what the merge left. */
  lemma NameRepairIsDead(prior: Device, obs: Observation)
    requires DistinctKeys(obs.fields)
    ensures Extend(prior, obs).fields == MergeProps(prior.fields, Obj(Remove(obs.fields, "_new")), 0)
  {
    if Truthy(Get(obs.fields, "_name")) {
      NameSurvivesMerge(prior, obs);
    }
  }

  /** A truthy incoming `_name` is still truthy after the merge. */
  lemma NameSurvivesMerge(prior: Device, obs: Observation)
    requires DistinctKeys(obs.fields) && Truthy(Get(obs.fields, "_name"))
    ensures Truthy(Get(MergeProps(prior.fields, Obj(Remove(obs.fields, "_new")), 0), "_name"))
  {
    var from := Remove(obs.fields, "_new");
    assert "_name"[2] != "_new"[2];
    assert Find(from, "_name") == Find(obs.fields, "_name");
    var m :| 0 <= m < |from| && from[m] == ("_name", Get(obs.fields, "_name"));
    forall j | 0 <= j < |from| ensures HistoryKey(from[j].0) != "_name" {
      HistoryKeyEnds(from[j].0, "_name");
    }
    assert "_name"[1] != "__debug"[1];
    MergeWalk(prior.fields, Obj(from), 0, m);
    MergedTruthy(prior.fields, "_name", Get(obs.fields, "_name"));
  }

  lemma MergedTruthy(dest: Props, name: string, v: Value)
    requires Truthy(v)
    ensures Truthy(MergedValue(dest, name, v))
  {
  }

  /** A repeat observation, property by property. A property it lacks
      keeps the stored value. A property it has holds the incoming value,
      merged into the stored object when both are objects; a special field
      that disagrees records the conflict under `<name>x`, and `<name>x` is
      otherwise left alone. This holds for every property that no incoming
      property shadows with its history. */
  lemma ExtendMerges(prior: Device, obs: Observation, k: string)
    requires DistinctKeys(obs.fields)
    requires k != "_new" && k != "__debug" && Unshadowed(obs.fields, k)
    ensures var d := Extend(prior, obs).fields;
            Find(obs.fields, k).None? ==> Find(d, k) == Find(prior.fields, k)
    ensures var d := Extend(prior, obs).fields;
            Find(obs.fields, k).Some? ==> Find(d, k) == Some(MergedValue(prior.fields, k, Find(obs.fields, k).value))
    ensures var d := Extend(prior, obs).fields;
            Find(obs.fields, k).Some? && !HasKey(obs.fields, HistoryKey(k)) ==>
              Find(d, HistoryKey(k)) == HistoryAfter(prior.fields, k, Find(obs.fields, k).value)
  {
    var from := Remove(obs.fields, "_new");
    NameRepairIsDead(prior, obs);
    assert Unshadowed(from, k) by {
      forall j | 0 <= j < |from| ensures HistoryKey(from[j].0) != k {
        assert from[j] in obs.fields;
      }
    }
    if Find(obs.fields, k).None? {
      assert Untouched(Obj(from), 0, k) by {
        forall j | 0 <= j < |from| ensures from[j].0 != k {
          assert from[j] in obs.fields;
        }
      }
    } else {
      var v := Find(obs.fields, k).value;
      assert Find(from, k) == Some(v);
      var m :| 0 <= m < |from| && from[m] == (k, v);
      if !HasKey(obs.fields, HistoryKey(k)) {
        assert !HasKey(from, HistoryKey(k)) by {
          assert Find(from, HistoryKey(k)).None?;
        }
      }
      MergeWalk(prior.fields, Obj(from), 0, m);
    }
  }

  /** A stored record extends an existing one only when its `_type` equals
      the reporting method's type. */
  predicate IsRepeat(devices: Devices, obs: Observation, mtype: Option<string>) {
    var found := Lookup(devices, TypeKey(mtype), JsString(Get(obs.fields, "_addr")));
    found.Some? && Get(found.value.fields, "_type") == TypeValue(mtype)
  }

  datatype Added = Added(devices: Devices, foundCount: nat, accepted: bool)

  /** `Browse.addDevice(newDevice, source, type)`. `foundCount` is the
      Browse's count of distinct devices; `accepted` is false where the
      source returns `undefined`. */
  function AddDevice(devices: Devices, foundCount: nat, obs: Observation, source: string, mtype: Option<string>): (r: Added)
    requires UpnpFromUpnp(obs, mtype)
    // an observation without a truthy `_addr` is ignored
    ensures !Truthy(Get(obs.fields, "_addr")) ==> r == Added(devices, foundCount, false)
    ensures Truthy(Get(obs.fields, "_addr")) ==> r.accepted
    // a new device is stored tagged and counted
    ensures Truthy(Get(obs.fields, "_addr")) && !IsRepeat(devices, obs, mtype) ==>
              && r.foundCount == foundCount + 1
              && Lookup(r.devices, TypeKey(mtype), JsString(Get(obs.fields, "_addr"))) == Some(FirstRecord(obs, source, mtype))
    // a repeat is not counted, and only appends its `_upnp` payload
    ensures Truthy(Get(obs.fields, "_addr")) && IsRepeat(devices, obs, mtype) ==>
              var ak := JsString(Get(obs.fields, "_addr"));
              var before := Lookup(devices, TypeKey(mtype), ak).value;
              var now := Lookup(r.devices, TypeKey(mtype), ak);
              && r.foundCount == foundCount
              && now == Some(Extend(before, obs))
    // no other device changes
    ensures forall t, a :: (t, a) != (TypeKey(mtype), JsString(Get(obs.fields, "_addr"))) ==>
              Lookup(r.devices, t, a) == Lookup(devices, t, a)
    ensures Keyed(devices) ==> Keyed(r.devices)
  {
    var addr := Get(obs.fields, "_addr");
    if !Truthy(addr) then Added(devices, foundCount, false)
    else
      var tk := TypeKey(mtype);
      var ak := JsString(addr);
      if IsRepeat(devices, obs, mtype) then
        Added(Store(devices, tk, ak, Extend(Lookup(devices, tk, ak).value, obs)), foundCount, true)
      else
        Added(Store(devices, tk, ak, FirstRecord(obs, source, mtype)), foundCount + 1, true)
  }

  /** Reporting the same observation twice: the first report stores and
      counts it, the second leaves the stored properties exactly as they
      were, is not counted, and only grows the `_upnp` list. */
  lemma RepeatObservation(devices: Devices, found: nat, obs: Observation, source: string, t: string)
    requires t != ""
    requires UpnpFromUpnp(obs, Some(t))
    requires Truthy(Get(obs.fields, "_addr"))
    requires WellFormed(Obj(obs.fields))
    requires !HasKey(obs.fields, "_source") && !HasKey(obs.fields, "_type")
    requires !IsRepeat(devices, obs, Some(t))
    ensures var first := AddDevice(devices, found, obs, source, Some(t));
            var second := AddDevice(first.devices, first.foundCount, obs, source, Some(t));
            var ak := JsString(Get(obs.fields, "_addr"));
            && first.foundCount == found + 1
            && second.foundCount == first.foundCount
            && Lookup(second.devices, t, ak).value.fields == FirstRecord(obs, source, Some(t)).fields
            && Lookup(second.devices, t, ak).value.upnp ==
                 FirstRecord(obs, source, Some(t)).upnp + (if obs.upnp == Undef then [] else [obs.upnp])
  {
    var ak := JsString(Get(obs.fields, "_addr"));
    var stored := FirstRecord(obs, source, Some(t));
    var first := AddDevice(devices, found, obs, source, Some(t));
    assert Lookup(first.devices, t, ak) == Some(stored);
    assert IsRepeat(first.devices, obs, Some(t));
    FirstRecordAbsorbsRepeat(obs, source, Some(t));
  }

  lemma FirstRecordAbsorbsRepeat(obs: Observation, source: string, mtype: Option<string>)
    requires UpnpFromUpnp(obs, mtype)
    requires WellFormed(Obj(obs.fields))
    requires !HasKey(obs.fields, "_source") && !HasKey(obs.fields, "_type")
    ensures Extend(FirstRecord(obs, source, mtype), obs).fields == FirstRecord(obs, source, mtype).fields
  {
    var stored := FirstRecord(obs, source, mtype);
    var from := Remove(obs.fields, "_new");
    FirstRecordKnowsRepeat(obs, source, mtype);
    assert Obj(from).props == from;
    MergeKnownIsNoOp(stored.fields, Obj(from), 0);
    FirstRecordName(obs, source, mtype);
  }

  lemma FirstRecordName(obs: Observation, source: string, mtype: Option<string>)
    requires UpnpFromUpnp(obs, mtype)
    ensures Get(FirstRecord(obs, source, mtype).fields, "_name") == Get(obs.fields, "_name")
  {
    assert "_name"[1] != "_type"[1];
  }

  lemma FirstRecordKnowsRepeat(obs: Observation, source: string, mtype: Option<string>)
    requires UpnpFromUpnp(obs, mtype)
    requires WellFormed(Obj(obs.fields))
    requires !HasKey(obs.fields, "_source") && !HasKey(obs.fields, "_type")
    ensures Knows(FirstRecord(obs, source, mtype).fields, Remove(obs.fields, "_new"), 0)
  {
    var from := Remove(obs.fields, "_new");
    forall m | 0 <= m < |from|
      ensures Find(FirstRecord(obs, source, mtype).fields, from[m].0) == Some(from[m].1) && WellFormed(from[m].1)
    {
      FirstRecordKnowsProperty(obs, source, mtype, from[m]);
    }
  }

  lemma FirstRecordKnowsProperty(obs: Observation, source: string, mtype: Option<string>, e: (string, Value))
    requires UpnpFromUpnp(obs, mtype)
    requires WellFormed(Obj(obs.fields))
    requires !HasKey(obs.fields, "_source") && !HasKey(obs.fields, "_type")
    requires e in Remove(obs.fields, "_new")
    ensures Find(FirstRecord(obs, source, mtype).fields, e.0) == Some(e.1) && WellFormed(e.1)
  {
    var n :| 0 <= n < |obs.fields| && obs.fields[n] == e;
    FindEntry(obs.fields, n);
    assert e.0 != "_new" by {
      assert HasKey(Remove(obs.fields, "_new"), e.0);
    }
    assert e.0 != "_source" && e.0 != "_type";
  }

  /** A method without a `type` never extends a record: its devices are
      stored with `_type` 'ip' under the key "undefined", the comparison with
      the missing type fails, and every report replaces the record and is
      counted again. */
  lemma UntypedMethodReplaces(devices: Devices, found: nat, obs: Observation, source: string)
    requires obs.upnp == Undef
    requires Truthy(Get(obs.fields, "_addr"))
    requires !IsRepeat(devices, obs, None)
    ensures var first := AddDevice(devices, found, obs, source, None);
            var second := AddDevice(first.devices, first.foundCount, obs, source, None);
            && second.foundCount == found + 2
            && Lookup(second.devices, "undefined", JsString(Get(obs.fields, "_addr"))) == Some(FirstRecord(obs, source, None))
  {
    var first := AddDevice(devices, found, obs, source, None);
    assert !IsRepeat(first.devices, obs, None);
  }
}

=== FILE: snapshot.dfy ===
/** The device list `Browse.done` hands on once discovery is over
    (main.js): every stored record, visited by sorted type key and then by
    sorted address key, followed by the synthetic local host. */
module Snapshot {
  import opened Js
  import opened Order
  import opened Registry

  /** `{_addr: '0.0.0.0', _name: 'localhost', _type: 'once'}` */
  const Localhost: Device :=
    Device([("_addr", Str("0.0.0.0")), ("_name", Str("localhost")), ("_type", Str("once"))], [])

  /** `g_devices[t]`, or nothing when the type has no records. */
  function AddrsOf(devices: Devices, t: string): seq<(string, Device)> {
    match Find(devices, t)
    case Some(byAddr) => byAddr
    case None => []
  }

  lemma InKeys<V>(d: seq<(string, V)>, k: string)
    ensures k in Keys(d) <==> HasKey(d, k)
  {
    if HasKey(d, k) {
      var i :| 0 <= i < |d| && d[i].0 == k;
      assert Keys(d)[i] == k;
    }
  }

  lemma InSort(keys: seq<string>, k: string)
    ensures k in Sort(keys) <==> k in keys
  {
    assert k in Sort(keys) <==> k in multiset(Sort(keys));
  }

  /** The (type key, address key) pairs of the types `ts`, each type's
      addresses in sorted order. */
  function PairsFrom(devices: Devices, ts: seq<string>): (ps: seq<(string, string)>)
    ensures forall p :: p in ps <==> p.0 in ts && HasKey(AddrsOf(devices, p.0), p.1)
  {
    if ts == [] then []
    else
      var addrs := Sort(Keys(AddrsOf(devices, ts[0])));
      var row := seq(|addrs|, i requires 0 <= i < |addrs| => (ts[0], addrs[i]));
      var rest := PairsFrom(devices, ts[1..]);
      assert forall a :: (ts[0], a) in row <==> HasKey(AddrsOf(devices, ts[0]), a) by {
        forall a ensures (ts[0], a) in row <==> HasKey(AddrsOf(devices, ts[0]), a) {
          InSort(Keys(AddrsOf(devices, ts[0])), a);
          InKeys(AddrsOf(devices, ts[0]), a);
          if a in addrs {
            var i :| 0 <= i < |addrs| && addrs[i] == a;
            assert row[i] == (ts[0], a);
          }
        }
      }
      assert forall p :: p in ts <==> p == ts[0] || p in ts[1..];
      row + rest
  }

  /** The order the snapshot visits records in: by type key, then by
      address key. */
  predicate PairLess(p: (string, string), q: (string, string)) {
    Less(p.0, q.0) || (p.0 == q.0 && Less(p.1, q.1))
  }

  /** The pairs the snapshot visits: every stored (type, address). */
  function Pairs(devices: Devices): (ps: seq<(string, string)>)
    ensures forall t, a :: (t, a) in ps <==> Lookup(devices, t, a).Some?
  {
    var ts := Sort(Keys(devices));
    var ps := PairsFrom(devices, ts);
    assert forall t, a :: (t, a) in ps <==> Lookup(devices, t, a).Some? by {
      forall t, a ensures (t, a) in ps <==> Lookup(devices, t, a).Some? {
        InSort(Keys(devices), t);
        InKeys(devices, t);
      }
    }
    ps
  }

  /** `Object.keys(g_devices).sort()` then `Object.keys(g_devices[t]).sort()`:
      the stored records, one per (type, address), in that order. */
  function Records(devices: Devices): (r: seq<Device>)
    ensures |r| == |Pairs(devices)|
    ensures forall i :: 0 <= i < |r| ==> Lookup(devices, Pairs(devices)[i].0, Pairs(devices)[i].1) == Some(r[i])
  {
    var ps := Pairs(devices);
    seq(|ps|, i requires 0 <= i < |ps| => Lookup(devices, ps[i].0, ps[i].1).value)
  }

  /** The list handed to the analysis: the records, then the local host. */
  function DeviceList(devices: Devices): (r: seq<Device>)
    ensures |r| == |Pairs(devices)| + 1
    ensures r[|r| - 1] == Localhost
    ensures r[..|r| - 1] == Records(devices)
  {
    Records(devices) + [Localhost]
  }

  /** With distinct keys at both levels, as JavaScript objects have, the
      visiting order is strictly increasing: no record is listed twice and
      types come out grouped. */
  lemma PairsOrdered(devices: Devices)
    requires Keyed(devices)
    ensures forall i, j :: 0 <= i < j < |Pairs(devices)| ==> PairLess(Pairs(devices)[i], Pairs(devices)[j])
  {
    assert forall t :: DistinctKeys(AddrsOf(devices, t));
    var ts := Sort(Keys(devices));
    SortDistinct(Keys(devices));
    PairsFromOrdered(devices, ts);
  }

  lemma {:induction false} PairsFromOrdered(devices: Devices, ts: seq<string>)
    requires StrictlySorted(ts)
    requires forall t :: DistinctKeys(AddrsOf(devices, t))
    ensures PairsOrderedSeq(PairsFrom(devices, ts))
  {
    if ts != [] {
      var d := AddrsOf(devices, ts[0]);
      var addrs := Sort(Keys(d));
      var row := seq(|addrs|, i requires 0 <= i < |addrs| => (ts[0], addrs[i]));
      var rest := PairsFrom(devices, ts[1..]);
      assert PairsFrom(devices, ts) == row + rest;
      PairsFromOrdered(devices, ts[1..]);
      SortDistinct(Keys(d));
      forall q | q in rest ensures Less(ts[0], q.0) {
        assert q.0 in ts[1..];
        LaterTypes(ts, q.0);
      }
      OrderedConcat(ts[0], row, rest);
    }
  }

  lemma LaterTypes(ts: seq<string>, t: string)
    requires StrictlySorted(ts) && ts != [] && t in ts[1..]
    ensures Less(ts[0], t)
  {
    var k :| 0 <= k < |ts[1..]| && ts[1..][k] == t;
    assert ts[k + 1] == t;
  }

  predicate PairsOrderedSeq(ps: seq<(string, string)>) {
    forall i, j :: 0 <= i < j < |ps| ==> PairLess(ps[i], ps[j])
  }

  /** A row of one type in increasing address order, followed by pairs of
      greater types in order, is in order. */
  lemma OrderedConcat(t: string, row: seq<(string, string)>, rest: seq<(string, string)>)
    requires forall i :: 0 <= i < |row| ==> row[i].0 == t
    requires forall i, j :: 0 <= i < j < |row| ==> Less(row[i].1, row[j].1)
    requires forall q :: q in rest ==> Less(t, q.0)
    requires PairsOrderedSeq(rest)
    ensures PairsOrderedSeq(row + rest)
  {
    var ps := row + rest;
    forall i, j | 0 <= i < j < |ps| ensures PairLess(ps[i], ps[j]) {
      if j < |row| {
        assert ps[i] == row[i] && ps[j] == row[j];
      } else if i < |row| {
        assert ps[j] == rest[j - |row|];
        assert ps[j] in rest;
      } else {
        assert ps[i] == rest[i - |row|] && ps[j] == rest[j - |row|];
      }
    }
  }
}
